=== FILE: README.md ===
# Hospital management core in Dafny

This project models the logic of two small Flask hospital applications once the
web framework, the ORM and the clock are replaced by values.

- **Appointment book (first schema, `hospital/app.py`).**
  - Tables are sequences of rows.
  - Adding, editing and deleting appointments, patients and doctors are pure
    transitions `Clinic -> Result<Clinic, ClinicError>`.
  - The doctor-availability endpoint is a method whose loop mirrors the
    source's `while current_time < end_time` loop. It is proved equal to a
    functional definition.
  - Times are minutes since midnight. Dates are `Date(year, month, day)`, parsed
    and printed as `strptime`/`strftime` do for the formats the code uses.
- **Record uploads and accounts (second schema, `hospital_app/app.py`,
  `hospital_app/models.py`).**
  - The name under which an uploaded medical record is stored is derived from
    the diagnosis and the date written in the file.
  - A posted full name is split back into first and last name.
  - A user / access-request store covers the administrator's handlers.

The modules follow the program's structure:

| module | file | contents |
|---|---|---|
| `Common` | common.dfy | `Option`, `Result`, row filtering, pairwise invariants, the SQLite rowid rule |
| `Text` | text.dfy | ASCII `isalnum`/`isspace`/`lower`, `strip`, digit strings, case-insensitive search |
| `Calendar` | calendar.dfy | dates, `'%Y-%m-%d'` and `'%B %d, %Y'` both ways, `Patient.age` |
| `Clock` | clock.dfy | `'%H:%M'` both ways, the `'%I:%M %p'` display |
| `Scheduling` | scheduling.dfy | the appointment book and its no-double-booking invariant |
| `Availability` | availability.dfy | the 30-minute grid and the availability endpoint |
| `Names` | names.dfy | `full_name`, the name split, the two username derivations |
| `Accounts` | accounts.dfy | users and access requests, unique usernames, the protected administrator |
| `Uploads` | uploads.dfy | `allowed_file`, the `Diagnosis:`/`Date:` extraction, the stored file name |

## Cancelled appointments still block their slot

In the first schema, the add and edit handlers search for a conflicting
appointment with the same doctor, date and time whatever its status
(`hospital/app.py:734-738`, `795-800`). The availability endpoint, however,
leaves out cancelled appointments (`hospital/app.py:870-873`).

So a cancelled appointment's slot is advertised as free, yet booking it is
refused. The model keeps both behaviours as the code has them:

- `Scheduling.SlotTaken` has no status filter.
- `Availability.Active` has one.
- `Availability.CancelledSlotRefusedYetListed` proves that both outcomes happen
  for the same slot.

## Model

| member | source | states |
|---|---|---|
| Scheduling.AddAppointment | hospital/app.py:729-758 | an unparsable date or time is `InvalidFormat`; the request is refused, as `SlotBooked`, iff some appointment of any status, cancelled included, holds the same doctor, date and time; otherwise exactly one appointment is appended, with status `scheduled`, the parsed slot, the form's patient, diagnosis and notes, and an id no row has, and no other table changes |
| Scheduling.EditAppointment | hospital/app.py:786-819 | a missing id is `NotFound`; a bad date or time is `InvalidFormat`; the conflict check covers every other appointment, excludes the edited one's own id, and refuses as `SlotBooked`; on success only that appointment changes, and it takes every field of the form, status included |
| Scheduling.DeleteAppointment | hospital/app.py:842-846 | a missing id is `NotFound`; otherwise that appointment is gone, every other appointment is kept, and patients, doctors and records are unchanged |
| Scheduling.DeletePatient | hospital/app.py:519-528 | a missing id is `NotFound`; otherwise the patient, all of its appointments and all of its medical records are removed, and every other row is kept |
| Scheduling.DeleteDoctor | hospital/app.py:658-668 | a missing id is `NotFound`; the deletion is refused iff the doctor has at least one appointment of any status; every other existing doctor is deleted, and only that doctor is removed |
| Scheduling.AddKeepsInvariant | hospital/app.py:734-758 | adding keeps appointment ids distinct and keeps any two appointments from sharing doctor, date and time |
| Scheduling.EditKeepsInvariant | hospital/app.py:795-819 | editing keeps ids distinct and slots unshared |
| Scheduling.DeleteAppointmentKeepsInvariant | hospital/app.py:845 | deleting an appointment keeps ids distinct and slots unshared |
| Scheduling.DeletePatientKeepsInvariant | hospital/app.py:523-528 | deleting a patient keeps ids distinct and slots unshared |
| Scheduling.ServeKeepsInvariant | hospital/app.py:723-853 | any sequence of add, edit and delete requests, each applied atomically, keeps the no-double-booking invariant |
| Scheduling.ResaveIsNoConflict | hospital/app.py:795-800 | re-saving an appointment at the slot it already holds is never refused |
| Scheduling.DeletePatientCascades | hospital_app/models.py:20-21 | when every appointment and record belongs to an existing patient, the same holds after a patient is deleted |
| Availability.GridShape | hospital/app.py:878-893 | the grid is exactly 16 times, 09:00 + 30 i, strictly ascending, all from 09:00 and before 17:00 |
| Availability.OnGrid | hospital/app.py:878-893 | a time of day is a grid time iff it is from 09:00, before 17:00 and a whole number of 30-minute steps after 09:00 |
| Availability.DoctorAvailability | hospital/app.py:870-898 | the loop returns as `booked_times` the `'%H:%M'` texts of the doctor's non-cancelled appointments on that date, and as `available_times` the grid times whose text is not booked, in grid order, each with its 12-hour display |
| Availability.GridStep | hospital/app.py:880-892 | one turn of the loop lists the current time exactly when its `'%H:%M'` text is not booked, and the listed slots followed by the free slots still ahead stay the same |
| Availability.AvailabilityQuery | hospital/app.py:860-868 | a missing or empty date is `DateRequired`; an unparsable one is `InvalidDate`; otherwise the two lists above |
| Availability.FreeTimesSpec | hospital/app.py:870-884 | a time is offered iff it is on the grid and no non-cancelled appointment of that doctor on that date holds it; the offered times ascend, and there are at most 16 |
| Availability.BookedTimesSpec | hospital/app.py:870-876 | any string is in `booked_times` iff it is the `'%H:%M'` text of one of that doctor's non-cancelled appointments on that date |
| Availability.NoBookingsAllFree | hospital/app.py:878-893 | with no bookings all 16 grid times are offered |
| Availability.IrrelevantBookingChangesNothing | hospital/app.py:870-884 | adding a booking that is off the grid (10:15, say), cancelled, for another doctor or on another date leaves the offered times unchanged |
| Availability.OneBookingAtTen | hospital/app.py:870-893 | one scheduled booking at 10:00 leaves 15 offered times and `booked_times == ["10:00"]` |
| Availability.CancelledSlotRefusedYetListed | hospital/app.py:734-738 | for a cancelled appointment's slot with no active booking, adding an appointment there is refused while the availability endpoint lists the time as free |
| Clock.ClockTextRoundTrip | hospital/app.py:731 | every minute of the day written as `'%H:%M'` parses back to itself |
| Clock.ClockTextInjective | hospital/app.py:884 | two times have the same `'%H:%M'` text iff they are equal, so comparing texts compares times |
| Clock.DisplayRoundTrip | hospital/app.py:887 | the `'%I:%M %p'` display determines the time it shows |
| Clock.DisplayExamples | hospital/app.py:887 | 09:00 shows as "09:00 AM", 12:00 as "12:00 PM", 13:30 as "01:30 PM", 00:00 as "12:00 AM" |
| Calendar.Age | hospital/app.py:82-85 | the age is the number of whole years from the date of birth: its anniversary is on or before today and the next one is after today |
| Calendar.OptionalAge | hospital_app/models.py:27-33 | the age is `None` exactly when there is no date of birth, else the age above |
| Calendar.AgeIsUnique | hospital_app/models.py:31-32 | the age is the only number of years with that property |
| Calendar.AgeMonotone | hospital_app/models.py:31-32 | the age never decreases as today advances |
| Calendar.AgeStepsAtBirthday | hospital_app/models.py:31-32 | the age is 0 on the birth date and rises by exactly 1 when the month and day reach the birthday |
| Calendar.IsoDateRoundTrip | hospital/app.py:730 | every valid date written as `'%Y-%m-%d'` parses back to itself |
| Calendar.IsoDateBlankPaddedDay | hospital/app.py:730 | a day below 10 written with a leading blank instead of a zero, as `%d` also accepts, reads as that day |
| Calendar.BlankPaddedDayExample | hospital/app.py:730 | "2025-06- 5" reads as the fifth of June 2025 |
| Calendar.IsoDateInjective | hospital/app.py:730 | distinct dates have distinct `'%Y-%m-%d'` texts |
| Calendar.LongDateRoundTrip | hospital_app/app.py:407-408 | every valid date written as `'%B %d, %Y'` parses back to itself |
| Calendar.IsoDateIsNotLong | hospital_app/app.py:394-410 | no `'%Y-%m-%d'` text parses as `'%B %d, %Y'`, so the default date text always falls through to today |
| Names.FullName | hospital_app/models.py:23-25 | the full name is the first name, one space, the last name, with each part at its position |
| Names.SplitFullName | hospital_app/app.py:330-335 | the first name is the text before the first space and holds no space; the last name is the rest, or empty when there is no space |
| Names.SplitFullNameRoundTrip | hospital_app/app.py:330-335 | splitting `first + " " + last` gives back both parts when the first name has no space |
| Names.FullNameOfSplit | hospital_app/models.py:84-86 | joining the parts of a split name that had a space gives the name back |
| Names.SplitExamples | hospital_app/app.py:330-335 | "Mary Ann Smith" splits into "Mary" and "Ann Smith"; "Cher" into "Cher" and "" |
| Names.InitialUsername | hospital/app.py:257 | an empty last name has no username, because the handler fails; otherwise the username is the lower-cased last-name initial followed by the lower-cased first name |
| Names.InitialUsernameCollides | hospital/app.py:257-258 | requests whose first names agree and whose last-name initials agree, both ignoring case, get the same username |
| Names.ApprovalUsername | hospital_app/app.py:532 | the username is lower case and as long as both names plus the underscore |
| Names.ApprovalUsernameSplits | hospital_app/app.py:532 | when the first name has no underscore, the username splits at its first underscore into the lower-cased first and last names |
| Accounts.SubmitRequest | hospital_app/app.py:78-96 | a missing or empty first name, last name or reason is refused; otherwise exactly one request is appended with those fields and a new id, and the users are unchanged |
| Accounts.GiveAccess | hospital_app/app.py:497-510 | refused, with the store unchanged, iff the username exists; otherwise exactly one user with that name and hash is appended, with a new id |
| Accounts.ApproveRequest | hospital_app/app.py:531-548 | a missing request is `NotFound`; otherwise the request is removed in both branches, and a user with the derived username is appended iff that username was not taken |
| Accounts.DenyRequest | hospital_app/app.py:559-562 | a missing request is `NotFound`; otherwise only that request is removed |
| Accounts.DeleteUser | hospital_app/app.py:575-585 | a missing user is `NotFound`; the deletion is refused iff the target is named "Administrator"; every other existing user is deleted: it is removed, every other user is kept, and the requests are unchanged |
| Accounts.TakenApprovalIsDenial | hospital_app/app.py:535-539 | approving a request whose username is taken has exactly the effect of denying it |
| Accounts.SeededStoreIsValid | hospital_app/app.py:40-45 | the start-up store holding only the administrator satisfies the account invariant |
| Accounts.GiveAccessKeepsInvariant | hospital_app/models.py:66 | `give_access` keeps user ids and usernames unique and keeps the administrator |
| Accounts.ApproveRequestKeepsInvariant | hospital_app/app.py:532-548 | `approve_request` keeps user ids and usernames unique and keeps the administrator |
| Accounts.SubmitRequestKeepsInvariant | hospital_app/app.py:78-96 | submitting an access request keeps user ids and usernames unique and keeps the administrator |
| Accounts.DenyRequestKeepsInvariant | hospital_app/app.py:559-562 | denying a request keeps user ids and usernames unique and keeps the administrator |
| Accounts.DeleteUserKeepsInvariant | hospital_app/app.py:578-585 | `delete_user` keeps usernames unique and can never remove the administrator |
| Accounts.RunKeepsInvariant | hospital_app/app.py:490-590 | any sequence of request, give, approve, deny and delete actions keeps usernames unique and the administrator present |
| Uploads.AllowedFile | hospital/app.py:25-27 | a name is accepted only if it contains a dot |
| Uploads.AllowedFileOfExtension | hospital/app.py:23-27 | a name with a dot is accepted iff the text after its last dot, lower-cased, is one of the ten listed extensions |
| Uploads.NoDotRefused | hospital/app.py:26 | a name without a dot is refused |
| Uploads.UpperCaseExtensionAllowed | hospital/app.py:27 | "scan.PDF" is accepted |
| Uploads.DoubleExtensionRefused | hospital/app.py:27 | "a.tar.gz" is refused: only the last extension counts |
| Uploads.EmptyExtensionRefused | hospital/app.py:27 | "file." is refused |
| Uploads.FieldValue | hospital_app/app.py:396-402 | there is a value iff the case-insensitive search for the label succeeds; a value never spans a line break and has no leading or trailing whitespace |
| Uploads.FieldValueMissing | hospital_app/app.py:396-402 | there is no value iff the label occurs at no position of the text, in any case |
| Uploads.RestOfLineAt | hospital_app/app.py:396-402 | after the label, `\s*(.*)` and `strip()` give the text from the first non-blank character up to the next line break, when that text ends in a non-blank |
| Uploads.FieldValueFound | hospital_app/app.py:396-402 | when the label first occurs at some position, in any mix of upper and lower case, the value is the rest of the line after that occurrence |
| Uploads.FieldValueOfLine | hospital_app/app.py:396-402 | when the first occurrence of the label is followed by whitespace and a value on its own line, that value is found |
| Uploads.FieldValueSkipsBlankLines | hospital_app/app.py:396 | an empty `Diagnosis:` line takes its value from the next non-blank line |
| Uploads.Diagnosis | hospital_app/app.py:393-400 | the diagnosis is the `Diagnosis:` value, or "No-Diagnosis" when the file has none |
| Uploads.Truncate | hospital_app/app.py:404 | the summary has at most 11 characters, all letters, digits or whitespace, with no leading or trailing whitespace, and keeps every letter and digit of the first 11 characters in order |
| Uploads.TruncateKeepsShortNames | hospital_app/app.py:404 | a stripped diagnosis of at most 11 letters, digits and spaces is kept as it is |
| Uploads.TruncateIdempotent | hospital_app/app.py:404 | truncating a summary again changes nothing |
| Uploads.DefaultSummary | hospital_app/app.py:393-404 | the default diagnosis becomes "NoDiagnosi" |
| Uploads.DatePart | hospital_app/app.py:394-410 | the date part is always a valid `'%Y-%m-%d'` text; a `Date:` value that reads as `'%B %d, %Y'` gives that date; any other value, and a file without a `Date:` label, gives today |
| Uploads.DatePartIgnoresIsoDate | hospital_app/app.py:401-410 | a `Date:` value written as `YYYY-MM-DD` does not count: the record is dated today |
| Uploads.DatePartOfLongDate | hospital_app/app.py:406-408 | a `Date:` value in `'%B %d, %Y'` form is re-written as the same date in `'%Y-%m-%d'` form |
| Uploads.UploadUsesFileDate | hospital_app/app.py:397-408 | a file whose first `Date:` line holds a long-form date is dated by it, whatever the upload day |
| Uploads.StoredNameSplits | hospital_app/app.py:412 | the stored name splits back at its first underscore into the summary, the ten-character date and the secured name |
| Uploads.UploadRecord | hospital_app/app.py:379-427 | a request without a file part is `NoFilePart`; an empty file name is `NoSelectedFile`; otherwise exactly one record is appended, for that patient, with the file's content, the truncated diagnosis as summary, the name `summary_date_secured` and a new id |
| Uploads.UploadedNameSplits | hospital_app/app.py:379-418 | a request whose file has a name is always stored, and the stored name gives back its summary, its date and its secured original name |

## Left out

- Flask routing, sessions and login gates, `flash`, templates, redirects, JSON and HTTP status codes are framework I/O. Each handler is modelled from the point where it has its form values.
- The SQLAlchemy layer is left out: queries, pagination, `contains` search and the dashboard counts. Tables are sequences and queries are filters.
- New row ids follow SQLite's rule for an `INTEGER PRIMARY KEY`: one more than the largest id present, or 1 for an empty table.
- Foreign keys are not enforced, as in SQLite by default. An appointment or record may name a patient or doctor that does not exist, as in the source.
- `generate_password_hash` and `secure_filename` are foreign calls. The hash is a parameter of the account handlers, and `secure_filename` is a function parameter of `Uploads.UploadRecord`. `check_password_hash`, `logout` and `reset_password` are not modelled, because they only touch password hashes and the session.
- The first schema's user table is not modelled: its `is_active` flag, which `toggle_user` flips (`hospital/app.py:318-330`), its roles, and the `login` lookup that admits only active users (`hospital/app.py:180`).
- The clock (`datetime.now()`, `date.today()`) is the parameter `today`. The upload handler reads the clock three times. Its two `datetime.now()` reads for the date part (`hospital_app/app.py:394`, `410`) both become the one `today`. The third read, `datetime.utcnow()` for `upload_date` (`hospital_app/app.py:421`), is not modelled.
- `Uploads.Record` has no `upload_date` column, because it only holds the clock reading above. It has no `file_path` column either: that is the upload folder joined with the stored name, and the folder is file-system configuration.
- Character classes, `str.lower`, `re.IGNORECASE` and the `\d` of `strptime`'s patterns cover ASCII only. Python's Unicode letters, digits, whitespace and case folding (the long s matching `s`, for instance) are not modelled.
- An uploaded file whose bytes are not UTF-8 makes the upload handler fail. The model takes the content as already-decoded text.
- File I/O is left out: saving, removing and sending files, the upload folder, and the text and Word exports.
- Concurrency is left out: the check-then-insert race between two bookings. Each request is one atomic transition.
- The second schema's appointment routes (`hospital_app/app.py:203-272`) use an attribute `date` while the mapped column is `date_time` (`hospital_app/models.py:49`). Those paths fail at run time, so only the first schema's appointment logic is modelled.
- The second schema's Doctor cascade has no delete route, so only the Patient cascade is modelled (`Scheduling.DeletePatientCascades`).
- The first schema's access-request review (approval status, reset of an existing user's password) is left out apart from its username rule (`Names.InitialUsername`). The admin dashboard with its mock activity list and the first-run seeding of the first schema are left out too.
- `app.py` (blog posts) and `hospital/static/js/main.js` (DOM glue; its age rule is the one modelled in `Calendar.Age`) are not part of this model.
- Calendar.IsoDate: years are written with four digits. A platform `strftime('%Y')` may write years below 1000 with fewer digits, and this is not modelled.
- Calendar.ValidDate: years run from 1 to 9999, the range of Python's `date`.
- Appointment status is a free string, because the edit form assigns it with no transition rules.
- Scheduling.EditAppointment: a form without a `status` field fails in the source with a generic error. The model's form always carries a status.

=== FILE: accounts.dfy ===
/** The login store of the second schema: users with unique usernames, pending
    access requests, and the administrator's handlers that move between them.
    Password hashing is a foreign call: each handler receives the hash it stores. */
module Accounts {
  import opened Common
  import opened Names

  datatype User = User(id: int, username: string, passwordHash: string)

  datatype AccessRequest = AccessRequest(id: int, firstName: string, lastName: string, reason: string, temporary: bool)

  datatype Store = Store(users: seq<User>, requests: seq<AccessRequest>)

  datatype AccountError =
    | MissingField            // an access request without first name, last name or reason
    | NotFound                // `get_or_404` on a missing id
    | UsernameTaken           // `give_access` with a username already present
    | AdministratorProtected  // `delete_user` aimed at the administrator

  /** The account created at start-up, which `delete_user` refuses to remove. */
  const Administrator: string := "Administrator"

  predicate HasUsername(users: seq<User>, name: string)
  {
    exists i :: 0 <= i < |users| && users[i].username == name
  }

  predicate HasUser(users: seq<User>, id: int)
  {
    exists i :: 0 <= i < |users| && users[i].id == id
  }

  predicate HasRequest(requests: seq<AccessRequest>, id: int)
  {
    exists i :: 0 <= i < |requests| && requests[i].id == id
  }

  function UserIds(users: seq<User>): seq<int>
  {
    Ids(users, (x: User) => x.id)
  }

  function RequestIds(requests: seq<AccessRequest>): seq<int>
  {
    Ids(requests, (x: AccessRequest) => x.id)
  }

  /** A form field that was absent or empty (`not first_name`). */
  predicate Blank(field: Option<string>)
  {
    field.None? || field.value == ""
  }

  /** `request_access`: every field required, then one request appended with a new id. */
  function SubmitRequest(a: Store, first: Option<string>, last: Option<string>, reason: Option<string>, temporary: bool)
    : (r: Result<Store, AccountError>)
    ensures r.Err? <==> Blank(first) || Blank(last) || Blank(reason)
    ensures r.Err? ==> r.error == MissingField
    ensures r.Ok? ==>
      && r.value.users == a.users
      && |r.value.requests| == |a.requests| + 1
      && r.value.requests[..|a.requests|] == a.requests
      && var q := r.value.requests[|a.requests|];
         q.firstName == first.value && q.lastName == last.value && q.reason == reason.value
         && q.temporary == temporary && !HasRequest(a.requests, q.id)
  {
    if Blank(first) || Blank(last) || Blank(reason) then Err(MissingField)
    else
      var q := AccessRequest(NextRowId(RequestIds(a.requests)), first.value, last.value, reason.value, temporary);
      assert (a.requests + [q])[..|a.requests|] == a.requests;
      Ok(a.(requests := a.requests + [q]))
  }

  /** `give_access`: refused when the username exists, else one user appended. */
  function GiveAccess(a: Store, username: string, hash: string): (r: Result<Store, AccountError>)
    ensures r.Err? <==> HasUsername(a.users, username)
    ensures r.Err? ==> r.error == UsernameTaken
    ensures r.Ok? ==>
      && r.value.requests == a.requests
      && |r.value.users| == |a.users| + 1
      && r.value.users[..|a.users|] == a.users
      && var u := r.value.users[|a.users|];
         u.username == username && u.passwordHash == hash && !HasUser(a.users, u.id)
  {
    if HasUsername(a.users, username) then Err(UsernameTaken)
    else
      var u := User(NextRowId(UserIds(a.users)), username, hash);
      assert (a.users + [u])[..|a.users|] == a.users;
      Ok(a.(users := a.users + [u]))
  }

  /** The requests other than the one with `id`. */
  function WithoutRequest(requests: seq<AccessRequest>, id: int): (r: seq<AccessRequest>)
    ensures !HasRequest(r, id)
    ensures forall i :: 0 <= i < |requests| && requests[i].id != id ==> requests[i] in r
    ensures forall i :: 0 <= i < |r| ==> r[i] in requests
  {
    Keep(requests, (q: AccessRequest) => q.id != id)
  }

  /** The first request with `id` (`AccessRequest.query.get`); its existence is
      the caller's obligation. */
  function RequestWithId(requests: seq<AccessRequest>, id: int): (q: AccessRequest)
    requires HasRequest(requests, id)
    ensures q in requests && q.id == id
  {
    if requests[0].id == id then requests[0]
    else
      assert HasRequest(requests[1..], id) by {
        var i :| 0 <= i < |requests| && requests[i].id == id;
        assert requests[1..][i - 1].id == id;
      }
      RequestWithId(requests[1..], id)
  }

  /** `approve_request`: the request is consumed either way; a user named
      `first_last` in lower case is created unless that name is already taken. */
  function ApproveRequest(a: Store, id: int, hash: string): (r: Result<Store, AccountError>)
    ensures r.Err? <==> !HasRequest(a.requests, id)
    ensures r.Err? ==> r.error == NotFound
    ensures r.Ok? ==> r.value.requests == WithoutRequest(a.requests, id)
    ensures r.Ok? ==>
      var q := RequestWithId(a.requests, id);
      var name := ApprovalUsername(q.firstName, q.lastName);
      if HasUsername(a.users, name) then r.value.users == a.users
      else
        && |r.value.users| == |a.users| + 1
        && r.value.users[..|a.users|] == a.users
        && r.value.users[|a.users|].username == name
        && r.value.users[|a.users|].passwordHash == hash
  {
    if !HasRequest(a.requests, id) then Err(NotFound)
    else
      var q := RequestWithId(a.requests, id);
      var rest := WithoutRequest(a.requests, id);
      match GiveAccess(a, ApprovalUsername(q.firstName, q.lastName), hash)
      case Err(_) => Ok(a.(requests := rest))
      case Ok(b) => Ok(b.(requests := rest))
  }

  /** `deny_request`: the request is removed and nothing else changes. */
  function DenyRequest(a: Store, id: int): (r: Result<Store, AccountError>)
    ensures r.Err? <==> !HasRequest(a.requests, id)
    ensures r.Err? ==> r.error == NotFound
    ensures r.Ok? ==> r.value.users == a.users && r.value.requests == WithoutRequest(a.requests, id)
  {
    if !HasRequest(a.requests, id) then Err(NotFound) else Ok(a.(requests := WithoutRequest(a.requests, id)))
  }

  /** `delete_user`: the administrator's account is refused; any other user is
      removed and all others are kept. */
  function DeleteUser(a: Store, id: int): (r: Result<Store, AccountError>)
    ensures !HasUser(a.users, id) ==> r == Err(NotFound)
    ensures HasUser(a.users, id) ==>
      (r == Err(AdministratorProtected) <==>
        exists i :: 0 <= i < |a.users| && a.users[i].id == id && a.users[i].username == Administrator)
    ensures r.Err? <==>
      (!HasUser(a.users, id) || exists i :: 0 <= i < |a.users| && a.users[i].id == id && a.users[i].username == Administrator)
    ensures r.Ok? ==>
      && r.value.requests == a.requests
      && !HasUser(r.value.users, id)
      && (forall i :: 0 <= i < |a.users| && a.users[i].id != id ==> a.users[i] in r.value.users)
      && (forall i :: 0 <= i < |r.value.users| ==> r.value.users[i] in a.users)
  {
    if !HasUser(a.users, id) then Err(NotFound)
    else if exists i :: 0 <= i < |a.users| && a.users[i].id == id && a.users[i].username == Administrator then
      Err(AdministratorProtected)
    else Ok(a.(users := Keep(a.users, (u: User) => u.id != id)))
  }

  predicate DistinctUserIds(u: User, v: User) { u.id != v.id }

  predicate DistinctUsernames(u: User, v: User) { u.username != v.username }

  /** User ids are a primary key and usernames are `unique=True`; the store was
      seeded with the administrator. */
  predicate AccountInvariant(a: Store)
  {
    && Pairwise(a.users, DistinctUserIds)
    && Pairwise(a.users, DistinctUsernames)
    && HasUsername(a.users, Administrator)
  }

  /** The first-run seeding: a store with only the administrator satisfies the invariant. */
  lemma SeededStoreIsValid(hash: string)
    ensures AccountInvariant(Store([User(1, Administrator, hash)], []))
  {
    assert Store([User(1, Administrator, hash)], []).users[0].username == Administrator;
  }

  /** Appending a user whose id and name are both new keeps the invariant. */
  lemma AppendUserKeepsInvariant(a: Store, u: User)
    requires AccountInvariant(a)
    requires !HasUser(a.users, u.id) && !HasUsername(a.users, u.username)
    ensures AccountInvariant(a.(users := a.users + [u]))
  {
    AppendPairwise(a.users, u, DistinctUserIds);
    AppendPairwise(a.users, u, DistinctUsernames);
    var i :| 0 <= i < |a.users| && a.users[i].username == Administrator;
    assert (a.users + [u])[i].username == Administrator;
  }

  lemma GiveAccessKeepsInvariant(a: Store, username: string, hash: string)
    requires AccountInvariant(a)
    ensures AccountInvariant(Commit(a, GiveAccess(a, username, hash)))
  {
    var r := GiveAccess(a, username, hash);
    if r.Ok? {
      var u := r.value.users[|a.users|];
      assert r.value.users == a.users + [u];
      AppendUserKeepsInvariant(a, u);
    }
  }

  lemma ApproveRequestKeepsInvariant(a: Store, id: int, hash: string)
    requires AccountInvariant(a)
    ensures AccountInvariant(Commit(a, ApproveRequest(a, id, hash)))
  {
    if HasRequest(a.requests, id) {
      var q := RequestWithId(a.requests, id);
      GiveAccessKeepsInvariant(a, ApprovalUsername(q.firstName, q.lastName), hash);
    }
  }

  lemma DenyRequestKeepsInvariant(a: Store, id: int)
    requires AccountInvariant(a)
    ensures AccountInvariant(Commit(a, DenyRequest(a, id)))
  {
  }

  lemma SubmitRequestKeepsInvariant(a: Store, first: Option<string>, last: Option<string>, reason: Option<string>, temporary: bool)
    requires AccountInvariant(a)
    ensures AccountInvariant(Commit(a, SubmitRequest(a, first, last, reason, temporary)))
  {
  }

  /** Deleting a user keeps usernames unique, and the administrator survives:
      the only user `delete_user` can never remove is the one it must keep. */
  lemma DeleteUserKeepsInvariant(a: Store, id: int)
    requires AccountInvariant(a)
    ensures AccountInvariant(Commit(a, DeleteUser(a, id)))
  {
    if DeleteUser(a, id).Ok? {
      var p := (u: User) => u.id != id;
      KeepPairwise(a.users, p, DistinctUserIds);
      KeepPairwise(a.users, p, DistinctUsernames);
      var i :| 0 <= i < |a.users| && a.users[i].username == Administrator;
      assert a.users[i].id != id;
      assert a.users[i] in Keep(a.users, p);
    }
  }

  /** An administrator's request, as the handlers receive it. */
  datatype Action =
    | Submit(first: Option<string>, last: Option<string>, reason: Option<string>, temporary: bool)
    | Give(username: string, hash: string)
    | Approve(requestId: int, hash: string)
    | Deny(requestId: int)
    | Remove(userId: int)

  function Perform(a: Store, x: Action): Result<Store, AccountError>
  {
    match x
    case Submit(f, l, why, t) => SubmitRequest(a, f, l, why, t)
    case Give(n, h) => GiveAccess(a, n, h)
    case Approve(q, h) => ApproveRequest(a, q, h)
    case Deny(q) => DenyRequest(a, q)
    case Remove(u) => DeleteUser(a, u)
  }

  function Run(a: Store, xs: seq<Action>): Store
    decreases xs
  {
    if xs == [] then a else Run(Commit(a, Perform(a, xs[0])), xs[1..])
  }

  /** However the handlers are interleaved, usernames stay unique and the
      administrator's account is still there. */
  lemma {:induction false} RunKeepsInvariant(a: Store, xs: seq<Action>)
    requires AccountInvariant(a)
    ensures AccountInvariant(Run(a, xs))
    decreases xs
  {
    if xs != [] {
      match xs[0] {
        case Submit(f, l, why, t) => SubmitRequestKeepsInvariant(a, f, l, why, t);
        case Give(n, h) => GiveAccessKeepsInvariant(a, n, h);
        case Approve(q, h) => ApproveRequestKeepsInvariant(a, q, h);
        case Deny(q) => DenyRequestKeepsInvariant(a, q);
        case Remove(u) => DeleteUserKeepsInvariant(a, u);
      }
      RunKeepsInvariant(Commit(a, Perform(a, xs[0])), xs[1..]);
    }
  }

  /** Approving a request whose derived username is taken creates no user but
      still consumes the request, exactly as denying it would. */
  lemma TakenApprovalIsDenial(a: Store, id: int, hash: string)
    requires HasRequest(a.requests, id)
    requires var q := RequestWithId(a.requests, id); HasUsername(a.users, ApprovalUsername(q.firstName, q.lastName))
    ensures ApproveRequest(a, id, hash) == DenyRequest(a, id)
  {
  }
}

=== FILE: availability.dfy ===
/** The doctor-availability endpoint: a fixed grid of half-hour start times
    from 09:00 up to 17:00, minus the times held by the doctor's non-cancelled
    appointments on the requested date. */
module Availability {
  import opened Common
  import opened Text
  import opened Calendar
  import opened Clock
  import opened Scheduling

  const Opening: Minute := 9 * 60
  const Closing: Minute := 17 * 60
  const SlotLength := 30

  /** The start times the endpoint's loop visits from `t` on: `t`, `t + 30`, ...
      while before 17:00. */
  function GridFrom(t: Minute): seq<Minute>
    decreases Closing - t
  {
    if t < Closing then [t] + GridFrom(AddMinutes(t, SlotLength)) else []
  }

  /** The candidate start times of a working day */
  function Grid(): seq<Minute>
  {
    GridFrom(Opening)
  }

  lemma {:induction false} GridFromShape(t: Minute)
    requires Opening <= t <= Closing && (t - Opening) % SlotLength == 0
    ensures |GridFrom(t)| == (Closing - t) / SlotLength
    ensures forall i :: 0 <= i < |GridFrom(t)| ==> GridFrom(t)[i] == t + SlotLength * i
    decreases Closing - t
  {
    if t < Closing {
      GridFromShape(t + SlotLength);
    }
  }

  /** The grid is the 16 times 09:00, 09:30, ..., 16:30: strictly ascending in
      30-minute steps, none before 09:00 and none at or after 17:00. */
  lemma GridShape()
    ensures |Grid()| == 16
    ensures forall i :: 0 <= i < 16 ==> Grid()[i] == Opening + SlotLength * i
    ensures forall i, j :: 0 <= i < j < 16 ==> Grid()[i] < Grid()[j]
    ensures forall i :: 0 <= i < 16 ==> Opening <= Grid()[i] < Closing
  {
    GridFromShape(Opening);
  }

  /** The time `t` is one of the grid's start times. */
  lemma OnGrid(t: Minute)
    ensures t in Grid() <==> Opening <= t < Closing && (t - Opening) % SlotLength == 0
  {
    GridShape();
    if Opening <= t < Closing && (t - Opening) % SlotLength == 0 {
      assert Grid()[(t - Opening) / SlotLength] == t;
    }
  }

  /** The appointments the endpoint reads: this doctor, this date, status not "cancelled". */
  predicate Active(a: Appointment, doctor: int, date: Date)
  {
    a.doctorId == doctor && a.date == date && a.status != Cancelled
  }

  /** The start times of those appointments, in table order */
  function ActiveTimes(appts: seq<Appointment>, doctor: int, date: Date): (ts: seq<Minute>)
    ensures forall t :: t in ts <==> exists i :: 0 <= i < |appts| && Active(appts[i], doctor, date) && appts[i].time == t
  {
    if appts == [] then []
    else
      var rest := ActiveTimes(appts[1..], doctor, date);
      assert forall i :: 1 <= i < |appts| ==> appts[i] == appts[1..][i - 1];
      (if Active(appts[0], doctor, date) then [appts[0].time] else []) + rest
  }

  /** `'%H:%M'` of each time, in order */
  function Texts(ts: seq<Minute>): (r: seq<string>)
    ensures |r| == |ts|
    ensures forall t: Minute :: ClockText(t) in r <==> t in ts
  {
    if ts == [] then []
    else
      var rest := Texts(ts[1..]);
      ClockTextInjective(ts[0], ts[0]);
      forall t: Minute
        ensures ClockText(t) == ClockText(ts[0]) <==> t == ts[0]
      {
        ClockTextInjective(t, ts[0]);
      }
      [ClockText(ts[0])] + rest
  }

  /** `booked_times`: the `'%H:%M'` texts of the doctor's non-cancelled
      appointments on the date, in table order */
  function BookedTimes(appts: seq<Appointment>, doctor: int, date: Date): seq<string>
  {
    Texts(ActiveTimes(appts, doctor, date))
  }

  /** The times of `ts` not in `booked`, in order */
  function Unbooked(ts: seq<Minute>, booked: seq<Minute>): (r: seq<Minute>)
    ensures |r| <= |ts|
    ensures forall t :: t in r <==> t in ts && t !in booked
  {
    if ts == [] then []
    else (if ts[0] in booked then [] else [ts[0]]) + Unbooked(ts[1..], booked)
  }

  lemma {:induction false} UnbookedConcat(a: seq<Minute>, b: seq<Minute>, booked: seq<Minute>)
    ensures Unbooked(a + b, booked) == Unbooked(a, booked) + Unbooked(b, booked)
  {
    if a == [] {
      assert a + b == b;
    } else {
      assert (a + b)[0] == a[0];
      assert (a + b)[1..] == a[1..] + b;
      UnbookedConcat(a[1..], b, booked);
    }
  }

  lemma {:induction false} UnbookedNone(ts: seq<Minute>, booked: seq<Minute>)
    requires forall i :: 0 <= i < |ts| ==> ts[i] !in booked
    ensures Unbooked(ts, booked) == ts
  {
    if ts != [] {
      UnbookedNone(ts[1..], booked);
    }
  }

  /** Leaving times out of an ascending list leaves it ascending. */
  lemma {:induction false} UnbookedAscending(ts: seq<Minute>, booked: seq<Minute>)
    requires forall i, j :: 0 <= i < j < |ts| ==> ts[i] < ts[j]
    ensures forall i, j :: 0 <= i < j < |Unbooked(ts, booked)| ==> Unbooked(ts, booked)[i] < Unbooked(ts, booked)[j]
  {
    if ts != [] {
      UnbookedAscending(ts[1..], booked);
      var rest := Unbooked(ts[1..], booked);
      forall k | 0 <= k < |rest|
        ensures ts[0] < rest[k]
      {
        assert rest[k] in ts[1..];
      }
    }
  }

  /** The free start times, as minutes: the grid times no active booking holds, in grid order. */
  function FreeTimes(appts: seq<Appointment>, doctor: int, date: Date): seq<Minute>
  {
    Unbooked(Grid(), ActiveTimes(appts, doctor, date))
  }

  /** One entry of `available_times` */
  datatype Slot = Slot(time: string, display: string)

  function SlotAt(t: Minute): Slot
  {
    Slot(ClockText(t), Display(t))
  }

  function SlotsAt(ts: seq<Minute>): (r: seq<Slot>)
    ensures |r| == |ts|
  {
    if ts == [] then [] else [SlotAt(ts[0])] + SlotsAt(ts[1..])
  }

  lemma {:induction false} SlotsAtConcat(a: seq<Minute>, b: seq<Minute>)
    ensures SlotsAt(a + b) == SlotsAt(a) + SlotsAt(b)
  {
    if a == [] {
      assert a + b == b;
    } else {
      assert (a + b)[0] == a[0];
      assert (a + b)[1..] == a[1..] + b;
      SlotsAtConcat(a[1..], b);
    }
  }

  /** `doctor_availability`: walks the grid as the endpoint's loop does, comparing
      `'%H:%M'` texts against `booked_times`. The slots it lists are exactly the
      free grid times, in grid order, each with its `'%H:%M'` text and
      twelve-hour display. */
  method DoctorAvailability(appts: seq<Appointment>, doctor: int, date: Date)
    returns (available: seq<Slot>, booked: seq<string>)
    ensures booked == BookedTimes(appts, doctor, date)
    ensures available == SlotsAt(FreeTimes(appts, doctor, date))
  {
    var held := ActiveTimes(appts, doctor, date);
    booked := Texts(held);
    available := [];
    var current: Minute := Opening;
    while current < Closing
      invariant available + SlotsAt(Unbooked(GridFrom(current), held)) == SlotsAt(Unbooked(Grid(), held))
      decreases Closing - current
    {
      var timeText := ClockText(current);
      GridStep(available, current, held);
      if timeText !in booked {
        available := available + [Slot(timeText, Display(current))];
      }
      current := AddMinutes(current, SlotLength);
    }
  }

  /** One turn of the endpoint's loop: the slots listed so far followed by the free
      slots from `t` on are the slots listed after visiting `t` followed by the
      free slots from `t + 30` on. `t` is listed when its text is not booked. */
  lemma GridStep(listed: seq<Slot>, t: Minute, held: seq<Minute>)
    requires t < Closing
    ensures var after := if ClockText(t) in Texts(held) then listed else listed + [Slot(ClockText(t), Display(t))];
      after + SlotsAt(Unbooked(GridFrom(AddMinutes(t, SlotLength)), held)) == listed + SlotsAt(Unbooked(GridFrom(t), held))
  {
    var next := AddMinutes(t, SlotLength);
    var rest := Unbooked(GridFrom(next), held);
    assert GridFrom(t) == [t] + GridFrom(next);
    if t in held {
      assert Unbooked(GridFrom(t), held) == rest;
    } else {
      var slot := Slot(ClockText(t), Display(t));
      assert Unbooked(GridFrom(t), held) == [t] + rest;
      SlotsAtConcat([t], rest);
      assert SlotsAt([t]) == [slot];
      assert (listed + [slot]) + SlotsAt(rest) == listed + ([slot] + SlotsAt(rest));
    }
  }

  datatype AvailabilityError =
    | DateRequired  // 400 "Date parameter required"
    | InvalidDate   // 400 "Invalid date format"

  /** The endpoint with its query parameter: a missing or empty `date` and an
      unparsable one are refused before any lookup. */
  method AvailabilityQuery(appts: seq<Appointment>, doctor: int, dateParam: Option<string>)
    returns (r: Result<(seq<Slot>, seq<string>), AvailabilityError>)
    ensures dateParam.None? || dateParam == Some("") ==> r == Err(DateRequired)
    ensures dateParam.Some? && dateParam.value != "" && ParseIsoDate(dateParam.value).None? ==> r == Err(InvalidDate)
    ensures dateParam.Some? && ParseIsoDate(dateParam.value).Some? ==>
      r == Ok((SlotsAt(FreeTimes(appts, doctor, ParseIsoDate(dateParam.value).value)),
               BookedTimes(appts, doctor, ParseIsoDate(dateParam.value).value)))
  {
    if dateParam.None? || dateParam.value == "" {
      return Err(DateRequired);
    }
    match ParseIsoDate(dateParam.value) {
      case None =>
        return Err(InvalidDate);
      case Some(date) =>
        var available, booked := DoctorAvailability(appts, doctor, date);
        return Ok((available, booked));
    }
  }

  // ------------------------------------------------------------ properties of the free times

  /** A time is listed exactly when it is on the grid and no active booking holds it;
      the list is strictly ascending and never longer than the grid. */
  lemma FreeTimesSpec(appts: seq<Appointment>, doctor: int, date: Date, t: Minute)
    ensures t in FreeTimes(appts, doctor, date) <==>
      t in Grid() && !exists i :: 0 <= i < |appts| && Active(appts[i], doctor, date) && appts[i].time == t
    ensures forall i, j :: 0 <= i < j < |FreeTimes(appts, doctor, date)| ==>
      FreeTimes(appts, doctor, date)[i] < FreeTimes(appts, doctor, date)[j]
    ensures |FreeTimes(appts, doctor, date)| <= 16
  {
    GridShape();
    UnbookedAscending(Grid(), ActiveTimes(appts, doctor, date));
  }

  /** A listed time's text is never among `booked_times`, and every free grid
      time is listed: the text comparison of the endpoint is the minute comparison. */
  lemma BookedTimesSpec(appts: seq<Appointment>, doctor: int, date: Date, s: string)
    ensures s in BookedTimes(appts, doctor, date) <==>
      exists i :: 0 <= i < |appts| && Active(appts[i], doctor, date) && s == ClockText(appts[i].time)
  {
    var ts := ActiveTimes(appts, doctor, date);
    if s in Texts(ts) {
      var t := TextOf(ts, s);
      assert t in ts;
    }
  }

  /** Every text of `Texts(ts)` is the `'%H:%M'` text of one of the times. */
  lemma {:induction false} TextOf(ts: seq<Minute>, s: string) returns (t: Minute)
    requires s in Texts(ts)
    ensures t in ts && s == ClockText(t)
  {
    if s == ClockText(ts[0]) {
      t := ts[0];
    } else {
      t := TextOf(ts[1..], s);
    }
  }

  /** With no active booking of the doctor on the date, all 16 grid times are free. */
  lemma NoBookingsAllFree(appts: seq<Appointment>, doctor: int, date: Date)
    requires forall i :: 0 <= i < |appts| ==> !Active(appts[i], doctor, date)
    ensures FreeTimes(appts, doctor, date) == Grid()
    ensures |FreeTimes(appts, doctor, date)| == 16
  {
    GridShape();
    UnbookedNone(Grid(), ActiveTimes(appts, doctor, date));
  }

  /** A booking that cannot remove a grid time, because it is off the grid (10:15,
      say), cancelled, or for another doctor or date, leaves the free times as they were. */
  lemma IrrelevantBookingChangesNothing(appts: seq<Appointment>, doctor: int, date: Date, a: Appointment)
    requires !Active(a, doctor, date) || a.time !in Grid()
    ensures FreeTimes(appts + [a], doctor, date) == FreeTimes(appts, doctor, date)
  {
    var s := appts + [a];
    var before, after := ActiveTimes(appts, doctor, date), ActiveTimes(s, doctor, date);
    forall t | t in Grid()
      ensures t in after <==> t in before
    {
      if t in after {
        var k :| 0 <= k < |s| && Active(s[k], doctor, date) && s[k].time == t;
        assert k < |appts| && appts[k] == s[k];
      }
      if t in before {
        var k :| 0 <= k < |appts| && Active(appts[k], doctor, date) && appts[k].time == t;
        assert s[k] == appts[k];
      }
    }
    UnbookedAgree(Grid(), after, before);
  }

  lemma {:induction false} UnbookedAgree(ts: seq<Minute>, b1: seq<Minute>, b2: seq<Minute>)
    requires forall t :: t in ts ==> (t in b1 <==> t in b2)
    ensures Unbooked(ts, b1) == Unbooked(ts, b2)
  {
    if ts != [] {
      UnbookedAgree(ts[1..], b1, b2);
    }
  }

  /** Booking one time that occurs once in a list removes exactly that entry. */
  lemma {:induction false} UnbookedOne(ts: seq<Minute>, k: int, x: Minute)
    requires 0 <= k < |ts| && ts[k] == x
    requires forall i :: 0 <= i < |ts| && i != k ==> ts[i] != x
    ensures |Unbooked(ts, [x])| == |ts| - 1
  {
    if k == 0 {
      UnbookedNone(ts[1..], [x]);
    } else {
      UnbookedOne(ts[1..], k - 1, x);
    }
  }

  /** The scenario of one active booking at 10:00: 15 slots stay free, 10:00 is
      not among them, and "10:00" is the only booked time. */
  lemma OneBookingAtTen(a: Appointment)
    requires a.time == 10 * 60 && a.status == Scheduled
    ensures |FreeTimes([a], a.doctorId, a.date)| == 15
    ensures 10 * 60 !in FreeTimes([a], a.doctorId, a.date)
    ensures BookedTimes([a], a.doctorId, a.date) == ["10:00"]
  {
    var held := ActiveTimes([a], a.doctorId, a.date);
    assert Active(a, a.doctorId, a.date) by {
      assert Scheduled[0] != Cancelled[0];
    }
    assert held == [10 * 60] by {
      assert [a][1..] == [];
      assert ActiveTimes([], a.doctorId, a.date) == [];
    }
    GridShape();
    UnbookedOne(Grid(), 2, 10 * 60);
    assert Texts(held) == [ClockText(10 * 60)] by {
      assert held[1..] == [];
    }
    assert ClockText(10 * 60) == "10:00" by {
      assert Pad2(10) == "10" && Pad2(0) == "00";
    }
  }

  // ------------------------------------------------------------ the two queries disagree on cancelled appointments

  /** A cancelled appointment still blocks its slot for new bookings, because the
      conflict query ignores the status, while the availability endpoint, which
      leaves cancelled appointments out, lists the same slot as free. */
  lemma CancelledSlotRefusedYetListed(c: Clinic, k: int, f: AppointmentForm)
    requires 0 <= k < |c.appointments|
    requires c.appointments[k].status == Cancelled
    requires c.appointments[k].time in Grid()
    requires forall i :: (0 <= i < |c.appointments| && Active(c.appointments[i], c.appointments[k].doctorId, c.appointments[k].date)
      ==> c.appointments[i].time != c.appointments[k].time)
    requires f.doctorId == c.appointments[k].doctorId
    requires ParseIsoDate(f.date) == Some(c.appointments[k].date) && ParseClock(f.time) == Some(c.appointments[k].time)
    ensures AddAppointment(c, f) == Err(SlotBooked)
    ensures c.appointments[k].time in FreeTimes(c.appointments, f.doctorId, c.appointments[k].date)
  {
    var a := c.appointments[k];
    assert SlotTaken(c.appointments, a.doctorId, a.date, a.time, None) by {
      assert Occupies(c.appointments[k], a.doctorId, a.date, a.time);
    }
    FreeTimesSpec(c.appointments, a.doctorId, a.date, a.time);
  }
}

=== FILE: calendar.dfy ===
/** Calendar dates as Python's `datetime.date` holds them, the two `strptime`
    formats the handlers parse (`'%Y-%m-%d'` and `'%B %d, %Y'`), their
    `strftime` counterparts, and the patient age rule. */
module Calendar {
  import opened Common
  import opened Text

  datatype Date = Date(year: int, month: int, day: int)

  predicate IsLeapYear(y: int)
  {
    y % 4 == 0 && (y % 100 != 0 || y % 400 == 0)
  }

  function DaysInMonth(y: int, m: int): int
    requires 1 <= m <= 12
  {
    if m == 2 then (if IsLeapYear(y) then 29 else 28)
    else if m == 4 || m == 6 || m == 9 || m == 11 then 30
    else 31
  }

  /** A date `datetime.date` accepts: years MINYEAR 1 to MAXYEAR 9999, a real month and day. */
  predicate ValidDate(d: Date)
  {
    1 <= d.year <= 9999 && 1 <= d.month <= 12 && 1 <= d.day <= DaysInMonth(d.year, d.month)
  }

  /** The `datetime.date` constructor: `None` stands for its ValueError. */
  function MakeDate(y: int, m: int, d: int): (r: Option<Date>)
    ensures r.Some? <==> ValidDate(Date(y, m, d))
    ensures r.Some? ==> r.value == Date(y, m, d)
  {
    if ValidDate(Date(y, m, d)) then Some(Date(y, m, d)) else None
  }

  /** Python's tuple comparison `(m1, d1) < (m2, d2)` */
  predicate MonthDayBefore(m1: int, d1: int, m2: int, d2: int)
  {
    m1 < m2 || (m1 == m2 && d1 < d2)
  }

  /** Chronological order of dates (`a <= b` on `datetime.date`) */
  predicate OnOrBefore(a: Date, b: Date)
  {
    a.year < b.year || (a.year == b.year && !MonthDayBefore(b.month, b.day, a.month, a.day))
  }

  /** The `k`-th anniversary of `dob`: same month and day, `k` years later. */
  function Anniversary(dob: Date, k: int): Date
  {
    Date(dob.year + k, dob.month, dob.day)
  }

  /** `Patient.age`: years from the date of birth to `today`, one fewer while
      this year's birthday is still ahead. The result is the number of
      anniversaries reached: the `a`-th has passed and the next has not. */
  function Age(dob: Date, today: Date): (a: int)
    ensures OnOrBefore(Anniversary(dob, a), today)
    ensures !OnOrBefore(Anniversary(dob, a + 1), today)
  {
    today.year - dob.year - (if MonthDayBefore(today.month, today.day, dob.month, dob.day) then 1 else 0)
  }

  /** The optional age of the second schema: no date of birth, no age. */
  function OptionalAge(dob: Option<Date>, today: Date): (r: Option<int>)
    ensures r.None? <==> dob.None?
    ensures r.Some? ==> r.value == Age(dob.value, today)
  {
    match dob
    case None => None
    case Some(d) => Some(Age(d, today))
  }

  /** Only one count of anniversaries fits: the age is determined by the
      "reached the `k`-th, not the `k+1`-th" description. */
  lemma AgeIsUnique(dob: Date, today: Date, k: int)
    requires OnOrBefore(Anniversary(dob, k), today)
    requires !OnOrBefore(Anniversary(dob, k + 1), today)
    ensures k == Age(dob, today)
  {
  }

  /** Age never decreases as time passes. */
  lemma AgeMonotone(dob: Date, t1: Date, t2: Date)
    requires OnOrBefore(t1, t2)
    ensures Age(dob, t1) <= Age(dob, t2)
  {
  }

  /** Within one calendar year the age is constant before the birthday, constant
      from the birthday on, and exactly one higher from the birthday on; on
      the date of birth itself it is 0. */
  lemma AgeStepsAtBirthday(dob: Date, before: Date, after: Date)
    requires before.year == after.year
    requires MonthDayBefore(before.month, before.day, dob.month, dob.day)
    requires !MonthDayBefore(after.month, after.day, dob.month, dob.day)
    ensures Age(dob, after) == Age(dob, before) + 1
    ensures Age(dob, after) == after.year - dob.year
    ensures Age(dob, dob) == 0
  {
  }

  // ---------------------------------------------------------------- '%Y-%m-%d'

  /** `strftime('%Y-%m-%d')` */
  function IsoDate(d: Date): (r: string)
    requires ValidDate(d)
    ensures |r| == 10 && r[4] == '-' && r[7] == '-'
  {
    Pad4(d.year) + "-" + Pad2(d.month) + "-" + Pad2(d.day)
  }

  /** The day as `strptime`'s `%d` reads it: one or two digits, or a blank and
      one digit from 1 to 9. A day of 0 passes here and is refused with the
      date it belongs to. */
  function DayNumber(s: string): (r: Option<nat>)
    ensures r.Some? ==> r.value <= 31
    ensures |s| == 2 && s[0] == ' ' && IsDigit(s[1]) ==> r.Some? == (s[1] != '0')
    ensures |s| == 2 && IsDigit(s[0]) && IsDigit(s[1]) ==> r == SmallNumber(s, 31)
  {
    if |s| == 2 && s[0] == ' ' && IsDigit(s[1]) && s[1] != '0' then Some(DigitValue(s[1]))
    else SmallNumber(s, 31)
  }

  /** `datetime.strptime(s, '%Y-%m-%d').date()`: four digits, `-`, a month of
      one or two digits, `-`, a day as `%d` reads it, nothing else; the date
      must exist. `None` stands for the ValueError. */
  function ParseIsoDate(s: string): (r: Option<Date>)
    ensures r.Some? ==> ValidDate(r.value)
  {
    if |s| < 5 || !AllDigits(s[..4]) || s[4] != '-' then None
    else
      var rest := s[5..];
      match IndexOf(rest, '-')
      case None => None
      case Some(j) =>
        match (SmallNumber(rest[..j], 12), DayNumber(rest[j + 1..]))
        case (Some(m), Some(d)) => MakeDate(NumberValue(s[..4]), m, d)
        case _ => None
  }

  /** Every date written by `strftime('%Y-%m-%d')` reads back as itself. */
  lemma IsoDateRoundTrip(d: Date)
    requires ValidDate(d)
    ensures ParseIsoDate(IsoDate(d)) == Some(d)
  {
    var s := IsoDate(d);
    var y, m, dd := Pad4(d.year), Pad2(d.month), Pad2(d.day);
    assert s == y + "-" + m + "-" + dd;
    assert s[..4] == y;
    var rest := s[5..];
    assert rest == m + "-" + dd;
    assert IndexOf(rest, '-') == Some(2) by {
      assert rest[2] == '-';
      assert rest[..2] == m;
      assert IsDigit(m[0]) && IsDigit(m[1]);
    }
    assert rest[..2] == m;
    assert rest[3..] == dd;
  }

  /** `%d` also reads a day below 10 written with a leading blank instead of a
      zero, so `2025-06- 5` is the fifth of June. */
  lemma IsoDateBlankPaddedDay(d: Date)
    requires ValidDate(d) && d.day <= 9
    ensures ParseIsoDate(Pad4(d.year) + "-" + Pad2(d.month) + "- " + [DigitChar(d.day)]) == Some(d)
  {
    var y, m, dd := Pad4(d.year), Pad2(d.month), " " + [DigitChar(d.day)];
    var s := y + "-" + m + "-" + dd;
    assert s == Pad4(d.year) + "-" + Pad2(d.month) + "- " + [DigitChar(d.day)];
    assert s[..4] == y;
    var rest := s[5..];
    assert rest == m + "-" + dd;
    assert IndexOf(rest, '-') == Some(2) by {
      assert rest[2] == '-';
      assert rest[..2] == m;
      assert IsDigit(m[0]) && IsDigit(m[1]);
    }
    assert rest[..2] == m;
    assert rest[3..] == dd;
    assert DayNumber(dd) == Some(d.day);
  }

  /** The example the rule above is about. */
  lemma BlankPaddedDayExample()
    ensures ParseIsoDate("2025-06- 5") == Some(Date(2025, 6, 5))
  {
    var s := "2025-06- 5";
    assert s[..4] == "2025" && AllDigits("2025");
    assert NumberValue("2025") == 2025 by {
      assert "2025"[..3] == "202" && "202"[..2] == "20" && "20"[..1] == "2" && "2"[..0] == "";
    }
    var rest := s[5..];
    assert rest == "06- 5";
    assert IndexOf(rest, '-') == Some(2) by {
      assert rest[0] != '-' && rest[1] != '-' && rest[2] == '-';
    }
    assert rest[..2] == "06" && rest[3..] == " 5";
    assert SmallNumber("06", 12) == Some(6) by {
      assert "06"[..1] == "0" && "0"[..0] == "";
    }
    assert DayNumber(" 5") == Some(5);
  }

  /** Distinct valid dates are written differently. */
  lemma IsoDateInjective(a: Date, b: Date)
    requires ValidDate(a) && ValidDate(b)
    requires IsoDate(a) == IsoDate(b)
    ensures a == b
  {
    IsoDateRoundTrip(a);
    IsoDateRoundTrip(b);
  }

  // ---------------------------------------------------------------- '%B %d, %Y'

  /** English (C locale) month names, as `%B` writes and reads them */
  const MonthNames: seq<string> := ["January", "February", "March", "April", "May", "June",
    "July", "August", "September", "October", "November", "December"]

  function MonthName(m: int): (r: string)
    requires 1 <= m <= 12
    ensures |r| >= 3
  {
    MonthNames[m - 1]
  }

  /** The month whose name, ignoring case, starts `s`, searching from month `m` on. */
  function MonthAtStart(s: string, m: int): (r: Option<int>)
    requires 1 <= m <= 13
    decreases 13 - m
    ensures r.Some? ==> m <= r.value <= 12 && MatchesAt(s, MonthName(r.value), 0)
    ensures forall k :: m <= k <= 12 && (r.None? || k < r.value) ==> !MatchesAt(s, MonthName(k), 0)
  {
    if m == 13 then None
    else if MatchesAt(s, MonthName(m), 0) then Some(m)
    else MonthAtStart(s, m + 1)
  }

  /** `strftime('%B %d, %Y')`, e.g. "June 01, 2025" */
  function LongDate(d: Date): (r: string)
    requires ValidDate(d)
  {
    MonthName(d.month) + " " + Pad2(d.day) + ", " + Pad4(d.year)
  }

  /** `datetime.strptime(s, '%B %d, %Y')`: a month name in any case, at least one
      whitespace character, a day of one or two digits, a comma, at least one
      whitespace character, exactly four digits, nothing else; the date must
      exist. `None` stands for the ValueError. */
  function ParseLongDate(s: string): (r: Option<Date>)
    ensures r.Some? ==> ValidDate(r.value)
  {
    match MonthAtStart(s, 1)
    case None => None
    case Some(m) => ParseDayYear(s[|MonthName(m)|..], m)
  }

  /** What follows the month name in `'%B %d, %Y'`: whitespace, the day up to the
      comma, whitespace, four digits. */
  function ParseDayYear(rest: string, m: int): (r: Option<Date>)
    ensures r.Some? ==> ValidDate(r.value) && r.value.month == m
  {
    var a := SkipWhile(IsSpace, rest, 0);
    if a == 0 then None
    else
      match IndexOf(rest[a..], ',')
      case None => None
      case Some(k) =>
        var dayText := rest[a..a + k];
        var after := rest[a + k + 1..];
        var b := SkipWhile(IsSpace, after, 0);
        var yearText := after[b..];
        if b == 0 || |yearText| != 4 || !AllDigits(yearText) then None
        else
          match DayNumber(dayText)
          case None => None
          case Some(dd) => MakeDate(NumberValue(yearText), m, dd)
  }

  /** The first three letters of the month names are pairwise different even
      ignoring case, so at most one name can start a string. */
  lemma MonthNamesDiffer(i: int, j: int)
    requires 1 <= i <= 12 && 1 <= j <= 12 && i != j
    ensures exists k :: 0 <= k < 3 && LowerChar(MonthName(i)[k]) != LowerChar(MonthName(j)[k])
  {
    var a, b := MonthName(i), MonthName(j);
    if LowerChar(a[0]) == LowerChar(b[0]) && LowerChar(a[1]) == LowerChar(b[1]) {
      assert LowerChar(a[2]) != LowerChar(b[2]);
    }
  }

  /** A string that starts with a month's name finds exactly that month. */
  lemma MonthAtStartOfName(m: int, tail: string)
    requires 1 <= m <= 12
    ensures MonthAtStart(MonthName(m) + tail, 1) == Some(m)
  {
    var s := MonthName(m) + tail;
    assert MatchesAt(s, MonthName(m), 0) by {
      forall k | 0 <= k < |MonthName(m)|
        ensures LowerChar(s[0 + k]) == LowerChar(MonthName(m)[k])
      {
        assert s[k] == MonthName(m)[k];
      }
    }
    var r := MonthAtStart(s, 1);
    if r != Some(m) {
      var k := r.value;
      MonthNamesDiffer(k, m);
    }
  }

  /** Every date written by `strftime('%B %d, %Y')` reads back as itself. */
  lemma LongDateRoundTrip(d: Date)
    requires ValidDate(d)
    ensures ParseLongDate(LongDate(d)) == Some(d)
  {
    var name := MonthName(d.month);
    var tail := " " + Pad2(d.day) + ", " + Pad4(d.year);
    var s := LongDate(d);
    assert s == name + tail;
    MonthAtStartOfName(d.month, tail);
    assert s[|name|..] == tail;
    DayYearRoundTrip(d);
  }

  /** The part after the month name reads back as the day and year it was written from. */
  lemma DayYearRoundTrip(d: Date)
    requires ValidDate(d)
    ensures ParseDayYear(" " + Pad2(d.day) + ", " + Pad4(d.year), d.month) == Some(d)
  {
    var dd, yy := Pad2(d.day), Pad4(d.year);
    var rest := " " + dd + ", " + yy;
    assert SkipWhile(IsSpace, rest, 0) == 1 by {
      assert IsSpace(rest[0]);
      assert rest[1] == dd[0] && IsDigit(dd[0]);
    }
    assert rest[1..] == dd + ", " + yy;
    DayBeforeComma(dd, " " + yy);
    assert rest[1..1 + 2] == dd;
    var after := rest[4..];
    assert after == " " + yy;
    YearAfterBlank(yy);
  }

  /** Two digits before a comma are the day text. */
  lemma DayBeforeComma(dd: string, yy: string)
    requires |dd| == 2 && AllDigits(dd)
    ensures IndexOf(dd + "," + yy, ',') == Some(2)
  {
    var u := dd + "," + yy;
    assert u[2] == ',';
    assert u[..2] == dd;
    assert IsDigit(dd[0]) && IsDigit(dd[1]);
  }

  /** One blank and then the year: the blank is skipped and the year is what remains. */
  lemma YearAfterBlank(yy: string)
    requires |yy| == 4 && AllDigits(yy)
    ensures SkipWhile(IsSpace, " " + yy, 0) == 1 && (" " + yy)[1..] == yy
  {
    var after := " " + yy;
    assert IsSpace(after[0]);
    assert after[1] == yy[0] && IsDigit(yy[0]);
  }

  /** No `'%Y-%m-%d'` string parses as `'%B %d, %Y'`: it starts with a digit,
      and every month name starts with a letter. */
  lemma IsoDateIsNotLong(d: Date)
    requires ValidDate(d)
    ensures ParseLongDate(IsoDate(d)) == None
  {
    var s := IsoDate(d);
    assert IsDigit(s[0]);
  }
}

=== FILE: clock.dfy ===
/** Times of day at minute resolution, the `'%H:%M'` form the handlers parse and
    compare, and the `'%I:%M %p'` form the availability endpoint displays. */
module Clock {
  import opened Common
  import opened Text

  /** Minutes since midnight. Times are parsed with `'%H:%M'`, so the seconds of
      every stored appointment time are zero and this is all a time holds. */
  type Minute = t: int | 0 <= t < 1440

  const MinutesPerDay := 1440

  /** `(datetime.combine(day, t) + timedelta(minutes=n)).time()`: adding wraps at midnight. */
  function AddMinutes(t: Minute, n: nat): (r: Minute)
    ensures t + n < MinutesPerDay ==> r == t + n
  {
    (t + n) % MinutesPerDay
  }

  /** `strftime('%H:%M')` */
  function ClockText(t: Minute): (r: string)
    ensures |r| == 5 && r[2] == ':'
  {
    Pad2(t / 60) + ":" + Pad2(t % 60)
  }

  /** `datetime.strptime(s, '%H:%M').time()`: an hour of one or two digits up to
      23, a colon, a minute of one or two digits up to 59, nothing else.
      `None` stands for the ValueError. */
  function ParseClock(s: string): (r: Option<Minute>)
  {
    match IndexOf(s, ':')
    case None => None
    case Some(i) =>
      match (SmallNumber(s[..i], 23), SmallNumber(s[i + 1..], 59))
      case (Some(h), Some(m)) => Some(h * 60 + m)
      case _ => None
  }

  /** Every time written by `'%H:%M'` reads back as itself. */
  lemma ClockTextRoundTrip(t: Minute)
    ensures ParseClock(ClockText(t)) == Some(t)
  {
    var s := ClockText(t);
    var hh, mm := Pad2(t / 60), Pad2(t % 60);
    assert s == hh + ":" + mm;
    assert IndexOf(s, ':') == Some(2) by {
      assert s[..2] == hh;
      assert IsDigit(hh[0]) && IsDigit(hh[1]);
    }
    assert s[..2] == hh;
    assert s[3..] == mm;
  }

  /** Distinct times have distinct `'%H:%M'` texts, so comparing the texts (as the
      availability endpoint does) is comparing the times. */
  lemma ClockTextInjective(a: Minute, b: Minute)
    ensures ClockText(a) == ClockText(b) <==> a == b
  {
    ClockTextRoundTrip(a);
    ClockTextRoundTrip(b);
  }

  /** The twelve-hour clock hour: 12 at noon and midnight */
  function Hour12(t: Minute): (h: int)
    ensures 1 <= h <= 12
  {
    if t / 60 % 12 == 0 then 12 else t / 60 % 12
  }

  /** `strftime('%I:%M %p')` in the C locale */
  function Display(t: Minute): (r: string)
    ensures |r| == 8 && r[2] == ':' && r[5] == ' '
  {
    Pad2(Hour12(t)) + ":" + Pad2(t % 60) + " " + (if t < 720 then "AM" else "PM")
  }

  /** Reads a `'%I:%M %p'` text back into a time of day. */
  function ReadDisplay(s: string): (r: Option<Minute>)
  {
    if |s| != 8 || s[2] != ':' || s[5] != ' ' || !AllDigits(s[..2]) || !AllDigits(s[3..5]) then None
    else
      var h, m, half := NumberValue(s[..2]), NumberValue(s[3..5]), s[6..];
      if 1 <= h <= 12 && m <= 59 && (half == "AM" || half == "PM")
      then Some((h % 12 + (if half == "PM" then 12 else 0)) * 60 + m)
      else None
  }

  /** Every displayed time reads back as itself, so no two times of day share a display. */
  lemma DisplayRoundTrip(t: Minute)
    ensures ReadDisplay(Display(t)) == Some(t)
  {
    var s := Display(t);
    var hh, mm, half := Pad2(Hour12(t)), Pad2(t % 60), if t < 720 then "AM" else "PM";
    assert s == hh + ":" + mm + " " + half;
    assert s[..2] == hh;
    assert s[3..5] == mm;
    assert s[6..] == half;
    assert Hour12(t) % 12 == t / 60 % 12;
  }

  lemma DisplayExamples()
    ensures Display(9 * 60) == "09:00 AM"
    ensures Display(12 * 60) == "12:00 PM"
    ensures Display(13 * 60 + 30) == "01:30 PM"
    ensures Display(0) == "12:00 AM"
  {
  }
}

=== FILE: common.dfy ===
/** Failure-carrying result types and the table operations every store of the
    model shares: a table is a sequence of rows in insertion order. */
module Common {

  /** A value that may be absent: Python's `None` or a regex that did not match. */
  datatype Option<+T> = None | Some(value: T)

  /** The outcome of a request handler: the new state, or the reason it was refused
      (in which case the handler committed nothing). */
  datatype Result<+T, +E> = Ok(value: T) | Err(error: E)

  /** The rows of `s` that satisfy `p`, in their original order: a `DELETE ... WHERE
      not p` seen from the rows that survive, or a `SELECT ... WHERE p`. */
  function Keep<T>(s: seq<T>, p: T -> bool): (r: seq<T>)
    ensures |r| <= |s|
    ensures forall i :: 0 <= i < |r| ==> r[i] in s && p(r[i])
    ensures forall i :: 0 <= i < |s| && p(s[i]) ==> s[i] in r
  {
    if s == [] then [] else (if p(s[0]) then [s[0]] else []) + Keep(s[1..], p)
  }

  /** A filter that drops some row leaves a shorter table. */
  lemma {:induction false} KeepShrinks<T>(s: seq<T>, p: T -> bool, k: int)
    requires 0 <= k < |s| && !p(s[k])
    ensures |Keep(s, p)| < |s|
  {
    if k > 0 {
      KeepShrinks(s[1..], p, k - 1);
    }
  }

  /** The state after a handler: the new state, or the old one when it refused. */
  function Commit<S, E>(s: S, r: Result<S, E>): S
  {
    if r.Ok? then r.value else s
  }

  /** `R` holds of every pair of rows, the earlier one first. */
  predicate Pairwise<T>(s: seq<T>, R: (T, T) -> bool)
  {
    forall i, j :: 0 <= i < j < |s| ==> R(s[i], s[j])
  }

  /** Deleting rows keeps every pairwise property: the survivors keep their order. */
  lemma {:induction false} KeepPairwise<T>(s: seq<T>, p: T -> bool, R: (T, T) -> bool)
    requires Pairwise(s, R)
    ensures Pairwise(Keep(s, p), R)
  {
    if s != [] {
      var tail := Keep(s[1..], p);
      assert Pairwise(s[1..], R) by {
        forall i, j | 0 <= i < j < |s[1..]|
          ensures R(s[1..][i], s[1..][j])
        {
          assert R(s[i + 1], s[j + 1]);
        }
      }
      KeepPairwise(s[1..], p, R);
      if p(s[0]) {
        var r := [s[0]] + tail;
        forall i, j | 0 <= i < j < |r|
          ensures R(r[i], r[j])
        {
          if i == 0 {
            assert r[j] in s[1..];
            var k :| 0 <= k < |s[1..]| && s[1..][k] == r[j];
            assert R(s[0], s[k + 1]);
          } else {
            assert r[i] == tail[i - 1] && r[j] == tail[j - 1];
          }
        }
      }
    }
  }

  /** Appending a row related to every earlier row keeps a pairwise property. */
  lemma AppendPairwise<T>(s: seq<T>, x: T, R: (T, T) -> bool)
    requires Pairwise(s, R)
    requires forall i :: 0 <= i < |s| ==> R(s[i], x)
    ensures Pairwise(s + [x], R)
  {
    var r := s + [x];
    forall i, j | 0 <= i < j < |r|
      ensures R(r[i], r[j])
    {
      if j < |s| {
        assert R(s[i], s[j]);
      }
    }
  }

  /** The `id` column of a table, in row order. */
  function Ids<T>(rows: seq<T>, id: T -> int): (ids: seq<int>)
    ensures |ids| == |rows| && forall i :: 0 <= i < |rows| ==> ids[i] == id(rows[i])
  {
    seq(|rows|, i requires 0 <= i < |rows| => id(rows[i]))
  }

  /** The rowid SQLite gives a new row of an `INTEGER PRIMARY KEY` table: one more
      than the largest id present, or 1 for an empty table. It is larger than
      every id in the table, hence new. */
  function NextRowId(ids: seq<int>): (n: int)
    ensures forall i :: 0 <= i < |ids| ==> ids[i] < n
    ensures ids == [] ==> n == 1
    ensures ids != [] ==> exists i :: 0 <= i < |ids| && n == ids[i] + 1
  {
    if ids == [] then 1
    else
      var rest := NextRowId(ids[1..]);
      if ids[1..] == [] || ids[0] + 1 > rest then ids[0] + 1 else rest
  }
}

=== FILE: names.dfy ===
/** Person names: the `full_name` property, the split of a posted full name back
    into first and last name, and the usernames the two approval handlers
    derive from an access request. */
module Names {
  import opened Common
  import opened Text

  /** `full_name` of Patient, Doctor and AccessRequest: `f"{first_name} {last_name}"` */
  function FullName(first: string, last: string): (r: string)
    ensures |r| == |first| + |last| + 1
    ensures r[|first|] == ' ' && r[..|first|] == first && r[|first| + 1..] == last
  {
    first + " " + last
  }

  /** `full_name.split(' ', 1)` as `edit_patient_form` uses it: the first name is the
      text before the first space, the last name everything after it (spaces
      included), or empty when there is no space. */
  function SplitFullName(s: string): (r: (string, string))
    ensures ' ' !in r.0
    ensures ' ' in s ==> s == r.0 + " " + r.1
    ensures ' ' !in s ==> r == (s, "")
  {
    match IndexOf(s, ' ')
    case None => (s, "")
    case Some(i) =>
      assert s == s[..i] + " " + s[i + 1..];
      (s[..i], s[i + 1..])
  }

  /** Splitting a full name gives back the names it was built from, when the
      first name has no space. */
  lemma SplitFullNameRoundTrip(first: string, last: string)
    requires ' ' !in first
    ensures SplitFullName(FullName(first, last)) == (first, last)
  {
    var s := FullName(first, last);
    assert IndexOf(s, ' ') == Some(|first|) by {
      assert s[..|first|] == first;
    }
  }

  /** Joining the two parts of a split name that had a space gives the name back. */
  lemma FullNameOfSplit(s: string)
    requires ' ' in s
    ensures FullName(SplitFullName(s).0, SplitFullName(s).1) == s
  {
  }

  lemma SplitExamples()
    ensures SplitFullName("Mary Ann Smith") == ("Mary", "Ann Smith")
    ensures SplitFullName("Cher") == ("Cher", "")
  {
    SplitFullNameRoundTrip("Mary", "Ann Smith");
    assert FullName("Mary", "Ann Smith") == "Mary Ann Smith";
  }

  /** The username the first schema's `approve_request` derives: the lower-cased
      initial of the last name, then the lower-cased first name. An empty last
      name has no initial (the handler fails with an IndexError): `None`. */
  function InitialUsername(first: string, last: string): (r: Option<string>)
    ensures r.None? <==> last == []
    ensures r.Some? ==> r.value == Lower(last[..1]) + Lower(first)
  {
    if last == [] then None
    else
      Some(Lower(last[..1]) + Lower(first))
  }

  /** Two requests whose first names agree and whose last names share an initial,
      ignoring case, get the same username. */
  lemma InitialUsernameCollides(f1: string, l1: string, f2: string, l2: string)
    requires l1 != [] && l2 != []
    requires Lower(f1) == Lower(f2) && LowerChar(l1[0]) == LowerChar(l2[0])
    ensures InitialUsername(f1, l1) == InitialUsername(f2, l2)
  {
    assert Lower(l1[..1]) == Lower(l2[..1]);
  }

  /** The username the second schema's `approve_request` derives:
      `f"{first_name.lower()}_{last_name.lower()}"` */
  function ApprovalUsername(first: string, last: string): (r: string)
    ensures |r| == |first| + |last| + 1 && Lower(r) == r
  {
    var r := Lower(first) + "_" + Lower(last);
    LowerConcat(Lower(first) + "_", Lower(last));
    LowerConcat(Lower(first), "_");
    r
  }

  /** When the first name has no underscore, the username splits back at its first
      underscore into the lower-cased first and last names. */
  lemma ApprovalUsernameSplits(first: string, last: string)
    requires '_' !in first
    ensures IndexOf(ApprovalUsername(first, last), '_') == Some(|first|)
    ensures ApprovalUsername(first, last)[..|first|] == Lower(first)
    ensures ApprovalUsername(first, last)[|first| + 1..] == Lower(last)
  {
    var u := ApprovalUsername(first, last);
    assert u == Lower(first) + "_" + Lower(last);
    assert u[..|first|] == Lower(first);
    assert '_' !in Lower(first) by {
      forall i | 0 <= i < |first|
        ensures Lower(first)[i] != '_'
      {
        assert first[i] != '_';
      }
    }
    assert u[|first|] == '_';
  }
}

=== FILE: scheduling.dfy ===
/** The appointment book of the first schema: patients, doctors, appointments
    and medical records as tables, and the request handlers that change them
    (add, edit and delete an appointment, delete a patient, delete a doctor). */
module Scheduling {
  import opened Common
  import opened Calendar
  import opened Clock

  datatype Patient = Patient(id: int, firstName: string, lastName: string, dateOfBirth: Date)

  datatype Doctor = Doctor(id: int, firstName: string, lastName: string)

  /** An appointment row. `status` is free text: the add handler writes
      "scheduled", the edit handler writes whatever the form sends. */
  datatype Appointment = Appointment(id: int, patientId: int, doctorId: int, date: Date, time: Minute,
                                     diagnosis: string, notes: string, status: string)

  datatype MedicalRecord = MedicalRecord(id: int, patientId: int, diagnosis: string)

  datatype Clinic = Clinic(patients: seq<Patient>, doctors: seq<Doctor>,
                           appointments: seq<Appointment>, records: seq<MedicalRecord>)

  /** The fields the add and edit forms post; date and time still as text. */
  datatype AppointmentForm = AppointmentForm(patientId: int, doctorId: int, date: string, time: string,
                                             diagnosis: string, notes: string, status: string)

  datatype ClinicError =
    | NotFound               // get_or_404
    | InvalidFormat          // "Invalid date or time format."
    | SlotBooked             // "This time slot is already booked for the selected doctor."
    | DoctorHasAppointments  // "Cannot delete doctor with existing appointments."

  const Scheduled := "scheduled"
  const Cancelled := "cancelled"

  /** `a` holds this doctor's slot at this date and time, whatever its status. */
  predicate Occupies(a: Appointment, doctor: int, date: Date, time: Minute)
  {
    a.doctorId == doctor && a.date == date && a.time == time
  }

  /** The conflict query of the add and edit handlers: some appointment other than
      `exclude` occupies the slot. It does not look at the status, so a cancelled
      appointment still holds its slot. */
  predicate SlotTaken(appts: seq<Appointment>, doctor: int, date: Date, time: Minute, exclude: Option<int>)
  {
    exists i :: 0 <= i < |appts| && Occupies(appts[i], doctor, date, time) && (exclude.None? || appts[i].id != exclude.value)
  }

  function AppointmentIds(appts: seq<Appointment>): seq<int>
  {
    Ids(appts, (x: Appointment) => x.id)
  }

  predicate HasAppointment(appts: seq<Appointment>, id: int)
  {
    exists i :: 0 <= i < |appts| && appts[i].id == id
  }

  predicate HasPatient(c: Clinic, id: int)
  {
    exists i :: 0 <= i < |c.patients| && c.patients[i].id == id
  }

  predicate HasDoctor(c: Clinic, id: int)
  {
    exists i :: 0 <= i < |c.doctors| && c.doctors[i].id == id
  }

  /** `add_appointment`: parse the date and time, refuse if any appointment of any
      status already holds the doctor's slot, otherwise append one new
      appointment with a fresh id and status "scheduled". Nothing else changes. */
  function AddAppointment(c: Clinic, f: AppointmentForm): (r: Result<Clinic, ClinicError>)
    ensures ParseIsoDate(f.date).None? || ParseClock(f.time).None? ==> r == Err(InvalidFormat)
    ensures ParseIsoDate(f.date).Some? && ParseClock(f.time).Some? ==>
      (r.Err? <==> SlotTaken(c.appointments, f.doctorId, ParseIsoDate(f.date).value, ParseClock(f.time).value, None))
    ensures r.Err? ==> r.error == InvalidFormat || r.error == SlotBooked
    ensures (ParseIsoDate(f.date).Some? && ParseClock(f.time).Some?
             && SlotTaken(c.appointments, f.doctorId, ParseIsoDate(f.date).value, ParseClock(f.time).value, None)) ==>
      r == Err(SlotBooked)
    ensures r.Ok? ==>
      var s := r.value.appointments;
      && r.value.patients == c.patients && r.value.doctors == c.doctors && r.value.records == c.records
      && |s| == |c.appointments| + 1 && s[..|c.appointments|] == c.appointments
      && s[|c.appointments|].status == Scheduled
      && Occupies(s[|c.appointments|], f.doctorId, ParseIsoDate(f.date).value, ParseClock(f.time).value)
      && s[|c.appointments|].patientId == f.patientId
      && s[|c.appointments|].diagnosis == f.diagnosis && s[|c.appointments|].notes == f.notes
      && !HasAppointment(c.appointments, s[|c.appointments|].id)
  {
    match (ParseIsoDate(f.date), ParseClock(f.time))
    case (Some(date), Some(time)) =>
      if SlotTaken(c.appointments, f.doctorId, date, time, None) then Err(SlotBooked)
      else
        var a := Appointment(NextRowId(AppointmentIds(c.appointments)), f.patientId, f.doctorId, date, time,
                             f.diagnosis, f.notes, Scheduled);
        Ok(c.(appointments := c.appointments + [a]))
    case _ => Err(InvalidFormat)
  }

  /** The appointment `a` with every form field written over it; the id stays. */
  function Revise(a: Appointment, f: AppointmentForm, date: Date, time: Minute): Appointment
  {
    a.(patientId := f.patientId, doctorId := f.doctorId, date := date, time := time,
       diagnosis := f.diagnosis, notes := f.notes, status := f.status)
  }

  /** The appointment table with the rows whose id is `id` revised from the form. */
  function ReviseById(appts: seq<Appointment>, id: int, f: AppointmentForm, date: Date, time: Minute): (r: seq<Appointment>)
    ensures |r| == |appts|
    ensures forall i :: 0 <= i < |appts| ==> r[i] == if appts[i].id == id then Revise(appts[i], f, date, time) else appts[i]
  {
    seq(|appts|, i requires 0 <= i < |appts| => if appts[i].id == id then Revise(appts[i], f, date, time) else appts[i])
  }

  /** `edit_appointment`: 404 for an unknown id; parse the date and time; refuse if
      an appointment with a different id, of any status, holds the new slot;
      otherwise overwrite the edited appointment's fields (status included, with
      no transition rule) and leave every other row as it was. */
  function EditAppointment(c: Clinic, id: int, f: AppointmentForm): (r: Result<Clinic, ClinicError>)
    ensures !HasAppointment(c.appointments, id) ==> r == Err(NotFound)
    ensures HasAppointment(c.appointments, id) && (ParseIsoDate(f.date).None? || ParseClock(f.time).None?) ==> r == Err(InvalidFormat)
    ensures HasAppointment(c.appointments, id) && ParseIsoDate(f.date).Some? && ParseClock(f.time).Some? ==>
      (r.Err? <==> SlotTaken(c.appointments, f.doctorId, ParseIsoDate(f.date).value, ParseClock(f.time).value, Some(id)))
    ensures r.Err? ==> r.error != DoctorHasAppointments
    ensures (HasAppointment(c.appointments, id) && ParseIsoDate(f.date).Some? && ParseClock(f.time).Some?
             && SlotTaken(c.appointments, f.doctorId, ParseIsoDate(f.date).value, ParseClock(f.time).value, Some(id))) ==>
      r == Err(SlotBooked)
    ensures r.Ok? ==>
      var s := r.value.appointments;
      && r.value.patients == c.patients && r.value.doctors == c.doctors && r.value.records == c.records
      && |s| == |c.appointments|
      && (forall i :: 0 <= i < |s| && c.appointments[i].id != id ==> s[i] == c.appointments[i])
      && (forall i :: 0 <= i < |s| && c.appointments[i].id == id ==>
            s[i].id == id && s[i].status == f.status && s[i].patientId == f.patientId
            && s[i].diagnosis == f.diagnosis && s[i].notes == f.notes
            && Occupies(s[i], f.doctorId, ParseIsoDate(f.date).value, ParseClock(f.time).value))
  {
    if !HasAppointment(c.appointments, id) then Err(NotFound)
    else
      match (ParseIsoDate(f.date), ParseClock(f.time))
      case (Some(date), Some(time)) =>
        if SlotTaken(c.appointments, f.doctorId, date, time, Some(id)) then Err(SlotBooked)
        else Ok(c.(appointments := ReviseById(c.appointments, id, f, date, time)))
      case _ => Err(InvalidFormat)
  }

  /** `delete_appointment`: 404 for an unknown id, otherwise that row goes. */
  function DeleteAppointment(c: Clinic, id: int): (r: Result<Clinic, ClinicError>)
    ensures r.Err? <==> !HasAppointment(c.appointments, id)
    ensures r.Err? ==> r.error == NotFound
    ensures r.Ok? ==>
      && r.value.patients == c.patients && r.value.doctors == c.doctors && r.value.records == c.records
      && !HasAppointment(r.value.appointments, id)
      && |r.value.appointments| < |c.appointments|
      && (forall i :: 0 <= i < |c.appointments| && c.appointments[i].id != id ==> c.appointments[i] in r.value.appointments)
      && (forall i :: 0 <= i < |r.value.appointments| ==> r.value.appointments[i] in c.appointments)
  {
    if !HasAppointment(c.appointments, id) then Err(NotFound)
    else
      var kept := Keep(c.appointments, (a: Appointment) => a.id != id);
      assert |kept| < |c.appointments| by {
        var k :| 0 <= k < |c.appointments| && c.appointments[k].id == id;
        KeepShrinks(c.appointments, (a: Appointment) => a.id != id, k);
      }
      Ok(c.(appointments := kept))
  }

  /** `delete_patient`: 404 for an unknown patient; otherwise the patient, and every
      appointment and medical record of that patient, are deleted. Rows of other
      patients and the doctors are untouched. */
  function DeletePatient(c: Clinic, id: int): (r: Result<Clinic, ClinicError>)
    ensures r.Err? <==> !HasPatient(c, id)
    ensures r.Err? ==> r.error == NotFound
    ensures r.Ok? ==>
      && r.value.doctors == c.doctors
      && !HasPatient(r.value, id)
      && (forall i :: 0 <= i < |r.value.appointments| ==> r.value.appointments[i].patientId != id)
      && (forall i :: 0 <= i < |r.value.records| ==> r.value.records[i].patientId != id)
      && (forall i :: 0 <= i < |c.appointments| && c.appointments[i].patientId != id ==> c.appointments[i] in r.value.appointments)
      && (forall i :: 0 <= i < |c.records| && c.records[i].patientId != id ==> c.records[i] in r.value.records)
      && (forall i :: 0 <= i < |c.patients| && c.patients[i].id != id ==> c.patients[i] in r.value.patients)
      && (forall i :: 0 <= i < |r.value.appointments| ==> r.value.appointments[i] in c.appointments)
      && (forall i :: 0 <= i < |r.value.records| ==> r.value.records[i] in c.records)
      && (forall i :: 0 <= i < |r.value.patients| ==> r.value.patients[i] in c.patients)
  {
    if !HasPatient(c, id) then Err(NotFound)
    else
      Ok(Clinic(Keep(c.patients, (p: Patient) => p.id != id),
                c.doctors,
                Keep(c.appointments, (a: Appointment) => a.patientId != id),
                Keep(c.records, (m: MedicalRecord) => m.patientId != id)))
  }

  /** `delete_doctor`: 404 for an unknown doctor; refused, with nothing changed,
      exactly when some appointment of any status names the doctor; otherwise
      only the doctor row goes. */
  function DeleteDoctor(c: Clinic, id: int): (r: Result<Clinic, ClinicError>)
    ensures !HasDoctor(c, id) ==> r == Err(NotFound)
    ensures HasDoctor(c, id) ==>
      (r == Err(DoctorHasAppointments) <==> exists i :: 0 <= i < |c.appointments| && c.appointments[i].doctorId == id)
    ensures r.Err? <==> !HasDoctor(c, id) || exists i :: 0 <= i < |c.appointments| && c.appointments[i].doctorId == id
    ensures r.Ok? ==>
      && r.value.patients == c.patients && r.value.appointments == c.appointments && r.value.records == c.records
      && !HasDoctor(r.value, id)
      && (forall i :: 0 <= i < |c.doctors| && c.doctors[i].id != id ==> c.doctors[i] in r.value.doctors)
      && (forall i :: 0 <= i < |r.value.doctors| ==> r.value.doctors[i] in c.doctors)
  {
    if !HasDoctor(c, id) then Err(NotFound)
    else if exists i :: 0 <= i < |c.appointments| && c.appointments[i].doctorId == id then Err(DoctorHasAppointments)
    else Ok(c.(doctors := Keep(c.doctors, (d: Doctor) => d.id != id)))
  }

  // ------------------------------------------------------------ the booking invariant

  predicate DistinctIds(a: Appointment, b: Appointment) { a.id != b.id }

  predicate DistinctSlots(a: Appointment, b: Appointment) { !Occupies(b, a.doctorId, a.date, a.time) }

  /** Appointment ids are a primary key, and no two appointments (of any status)
      share a doctor, date and time. */
  predicate BookingInvariant(appts: seq<Appointment>)
  {
    Pairwise(appts, DistinctIds) && Pairwise(appts, DistinctSlots)
  }

  lemma AddKeepsInvariant(c: Clinic, f: AppointmentForm)
    requires BookingInvariant(c.appointments)
    ensures BookingInvariant(Commit(c, AddAppointment(c, f)).appointments)
  {
    var r := AddAppointment(c, f);
    if r.Ok? {
      var s := c.appointments;
      var a := r.value.appointments[|s|];
      assert r.value.appointments == s + [a];
      var date, time := ParseIsoDate(f.date).value, ParseClock(f.time).value;
      forall i | 0 <= i < |s|
        ensures DistinctIds(s[i], a) && DistinctSlots(s[i], a)
      {
        assert !Occupies(s[i], f.doctorId, date, time);
      }
      AppendPairwise(s, a, DistinctIds);
      AppendPairwise(s, a, DistinctSlots);
    }
  }

  lemma EditKeepsInvariant(c: Clinic, id: int, f: AppointmentForm)
    requires BookingInvariant(c.appointments)
    ensures BookingInvariant(Commit(c, EditAppointment(c, id, f)).appointments)
  {
    var r := EditAppointment(c, id, f);
    if r.Ok? {
      var s, t := c.appointments, r.value.appointments;
      var date, time := ParseIsoDate(f.date).value, ParseClock(f.time).value;
      assert t == ReviseById(s, id, f, date, time);
      forall i, j | 0 <= i < j < |t|
        ensures DistinctIds(t[i], t[j]) && DistinctSlots(t[i], t[j])
      {
        assert DistinctIds(s[i], s[j]) && DistinctSlots(s[i], s[j]);
      }
    }
  }

  lemma DeleteAppointmentKeepsInvariant(c: Clinic, id: int)
    requires BookingInvariant(c.appointments)
    ensures BookingInvariant(Commit(c, DeleteAppointment(c, id)).appointments)
  {
    if DeleteAppointment(c, id).Ok? {
      KeepPairwise(c.appointments, (a: Appointment) => a.id != id, DistinctIds);
      KeepPairwise(c.appointments, (a: Appointment) => a.id != id, DistinctSlots);
    }
  }

  lemma DeletePatientKeepsInvariant(c: Clinic, id: int)
    requires BookingInvariant(c.appointments)
    ensures BookingInvariant(Commit(c, DeletePatient(c, id)).appointments)
  {
    if DeletePatient(c, id).Ok? {
      KeepPairwise(c.appointments, (a: Appointment) => a.patientId != id, DistinctIds);
      KeepPairwise(c.appointments, (a: Appointment) => a.patientId != id, DistinctSlots);
    }
  }

  /** Re-saving an appointment at the slot it already holds is never a conflict:
      the edit check leaves out the appointment's own id. */
  lemma ResaveIsNoConflict(c: Clinic, k: int, f: AppointmentForm)
    requires BookingInvariant(c.appointments)
    requires 0 <= k < |c.appointments|
    requires ParseIsoDate(f.date) == Some(c.appointments[k].date)
    requires ParseClock(f.time) == Some(c.appointments[k].time)
    requires f.doctorId == c.appointments[k].doctorId
    ensures EditAppointment(c, c.appointments[k].id, f).Ok?
  {
    var s, a := c.appointments, c.appointments[k];
    assert HasAppointment(s, a.id);
  }

  // ------------------------------------------------------------ request sequences

  /** One request to the appointment book. */
  datatype Request =
    | Add(form: AppointmentForm)
    | Edit(id: int, form: AppointmentForm)
    | RemoveAppointment(id: int)
    | RemovePatient(id: int)
    | RemoveDoctor(id: int)

  function Handle(c: Clinic, q: Request): Result<Clinic, ClinicError>
  {
    match q
    case Add(f) => AddAppointment(c, f)
    case Edit(id, f) => EditAppointment(c, id, f)
    case RemoveAppointment(id) => DeleteAppointment(c, id)
    case RemovePatient(id) => DeletePatient(c, id)
    case RemoveDoctor(id) => DeleteDoctor(c, id)
  }

  /** The store after serving `qs` one at a time, each request atomic. */
  function Serve(c: Clinic, qs: seq<Request>): Clinic
    decreases |qs|
  {
    if qs == [] then c else Serve(Commit(c, Handle(c, qs[0])), qs[1..])
  }

  /** No double booking, from any valid book, whatever requests arrive. */
  lemma {:induction false} ServeKeepsInvariant(c: Clinic, qs: seq<Request>)
    requires BookingInvariant(c.appointments)
    ensures BookingInvariant(Serve(c, qs).appointments)
    decreases |qs|
  {
    if qs != [] {
      match qs[0] {
        case Add(f) => AddKeepsInvariant(c, f);
        case Edit(id, f) => EditKeepsInvariant(c, id, f);
        case RemoveAppointment(id) => DeleteAppointmentKeepsInvariant(c, id);
        case RemovePatient(id) => DeletePatientKeepsInvariant(c, id);
        case RemoveDoctor(id) =>
      }
      ServeKeepsInvariant(Commit(c, Handle(c, qs[0])), qs[1..]);
    }
  }

  // ------------------------------------------------------------ cascade

  /** Every appointment and medical record names a patient of the clinic. */
  predicate NoOrphans(c: Clinic)
  {
    && (forall i :: 0 <= i < |c.appointments| ==> HasPatient(c, c.appointments[i].patientId))
    && (forall i :: 0 <= i < |c.records| ==> HasPatient(c, c.records[i].patientId))
  }

  /** Deleting a patient cascades: it leaves behind no appointment or record of
      that patient, so a clinic without orphan rows stays without them. */
  lemma DeletePatientCascades(c: Clinic, id: int)
    requires NoOrphans(c)
    ensures NoOrphans(Commit(c, DeletePatient(c, id)))
  {
    var r := DeletePatient(c, id);
    if r.Ok? {
      var d := r.value;
      forall i | 0 <= i < |d.appointments|
        ensures HasPatient(d, d.appointments[i].patientId)
      {
        var a := d.appointments[i];
        var k :| 0 <= k < |c.patients| && c.patients[k].id == a.patientId;
        assert c.patients[k] in d.patients;
      }
      forall i | 0 <= i < |d.records|
        ensures HasPatient(d, d.records[i].patientId)
      {
        var m := d.records[i];
        var k :| 0 <= k < |c.patients| && c.patients[k].id == m.patientId;
        assert c.patients[k] in d.patients;
      }
    }
  }
}

=== FILE: text.dfy ===
/** ASCII character classes and the string helpers the handlers use. Python's
    `str` methods are Unicode-aware; this model restricts them to ASCII. */
module Text {
  import opened Common

  predicate IsDigit(c: char) { '0' <= c <= '9' }

  predicate IsUpper(c: char) { 'A' <= c <= 'Z' }

  predicate IsLetter(c: char) { 'A' <= c <= 'Z' || 'a' <= c <= 'z' }

  /** `str.isalnum` on one ASCII character */
  predicate IsAlnum(c: char) { IsLetter(c) || IsDigit(c) }

  /** `str.isspace` (and the regex class `\s`) on ASCII: TAB, LF, VT, FF, CR,
      the four separators 0x1C-0x1F, and SPACE */
  predicate IsSpace(c: char) { 9 <= c as int <= 13 || 28 <= c as int <= 32 }

  predicate IsAlnumOrSpace(c: char) { IsAlnum(c) || IsSpace(c) }

  predicate AllDigits(s: string) { forall i :: 0 <= i < |s| ==> IsDigit(s[i]) }

  /** `str.lower` on one ASCII character */
  function LowerChar(c: char): char
  {
    if IsUpper(c) then (c as int + 32) as char else c
  }

  /** `str.lower` */
  function Lower(s: string): (r: string)
    ensures |r| == |s|
    ensures forall i :: 0 <= i < |s| ==> r[i] == LowerChar(s[i])
  {
    seq(|s|, i requires 0 <= i < |s| => LowerChar(s[i]))
  }

  lemma LowerConcat(a: string, b: string)
    ensures Lower(a + b) == Lower(a) + Lower(b)
  {
  }

  /** The characters of `s` that satisfy `p`, in order (Python's `''.join(e for e in s if p(e))`). */
  function Filter(p: char -> bool, s: string): (r: string)
    ensures |r| <= |s|
  {
    if s == [] then [] else (if p(s[0]) then [s[0]] else []) + Filter(p, s[1..])
  }

  /** Every character the filter keeps satisfies its predicate. */
  lemma {:induction false} FilterKeepsOnly(p: char -> bool, s: string)
    ensures forall i :: 0 <= i < |Filter(p, s)| ==> p(Filter(p, s)[i])
  {
    if s != [] {
      FilterKeepsOnly(p, s[1..]);
    }
  }

  lemma {:induction false} FilterConcat(p: char -> bool, a: string, b: string)
    ensures Filter(p, a + b) == Filter(p, a) + Filter(p, b)
  {
    if a == [] {
      assert a + b == b;
    } else {
      var h := if p(a[0]) then [a[0]] else [];
      assert (a + b)[0] == a[0];
      assert (a + b)[1..] == a[1..] + b;
      assert Filter(p, a + b) == h + Filter(p, a[1..] + b);
      FilterConcat(p, a[1..], b);
      assert Filter(p, a) == h + Filter(p, a[1..]);
    }
  }

  /** Filtering with a predicate that rejects every character of `s` leaves nothing. */
  lemma {:induction false} FilterNone(p: char -> bool, s: string)
    requires forall i :: 0 <= i < |s| ==> !p(s[i])
    ensures Filter(p, s) == []
  {
    if s != [] {
      FilterNone(p, s[1..]);
    }
  }

  /** Filtering a one-character string keeps it exactly when `p` holds of it. */
  lemma FilterSingle(p: char -> bool, c: char)
    ensures Filter(p, [c]) == if p(c) then [c] else []
  {
    assert [c][1..] == [];
  }

  /** Filtering by `q` after filtering by a weaker `p` is filtering by `q`. */
  lemma {:induction false} FilterNarrow(p: char -> bool, q: char -> bool, s: string)
    requires forall c :: q(c) ==> p(c)
    ensures Filter(q, Filter(p, s)) == Filter(q, s)
  {
    if s != [] {
      var h := if p(s[0]) then [s[0]] else [];
      assert Filter(p, s) == h + Filter(p, s[1..]);
      FilterConcat(q, h, Filter(p, s[1..]));
      FilterSingle(q, s[0]);
      assert Filter(q, h) == if q(s[0]) then [s[0]] else [] by {
        if !p(s[0]) {
          assert !q(s[0]);
        }
      }
      FilterNarrow(p, q, s[1..]);
    }
  }

  /** The first index at or after `i` whose character fails `p`, or `|s|`. */
  function SkipWhile(p: char -> bool, s: string, i: nat): (j: nat)
    requires i <= |s|
    decreases |s| - i
    ensures i <= j <= |s|
    ensures forall k :: i <= k < j ==> p(s[k])
    ensures j < |s| ==> !p(s[j])
  {
    if i < |s| && p(s[i]) then SkipWhile(p, s, i + 1) else i
  }

  /** `SkipWhile` stops exactly at the first index from `i` on whose character fails `p`. */
  lemma {:induction false} SkipWhileStopsAt(p: char -> bool, s: string, i: nat, j: nat)
    requires i <= j <= |s|
    requires forall k :: i <= k < j ==> p(s[k])
    requires j < |s| ==> !p(s[j])
    ensures SkipWhile(p, s, i) == j
    decreases j - i
  {
    if i < j {
      SkipWhileStopsAt(p, s, i + 1, j);
    }
  }

  /** Number of leading whitespace characters */
  function LeadingSpace(s: string): (n: nat)
    ensures n <= |s|
    ensures forall i :: 0 <= i < n ==> IsSpace(s[i])
    ensures n < |s| ==> !IsSpace(s[n])
  {
    SkipWhile(IsSpace, s, 0)
  }

  /** The first index at or before `j` from which every character up to `j`
      satisfies `p`: `j` moved back over a run of `p`. */
  function SkipBackWhile(p: char -> bool, s: string, j: nat): (i: nat)
    requires j <= |s|
    ensures i <= j
    ensures forall k :: i <= k < j ==> p(s[k])
    ensures 0 < i ==> !p(s[i - 1])
  {
    if 0 < j && p(s[j - 1]) then SkipBackWhile(p, s, j - 1) else j
  }

  /** `str.strip()`: the window of `s` left after removing leading and trailing
      whitespace. Everything outside the window is whitespace and the window
      neither starts nor ends with whitespace. */
  function Strip(s: string): (r: string)
    ensures |r| <= |s|
    ensures LeadingSpace(s) + |r| <= |s| && r == s[LeadingSpace(s)..LeadingSpace(s) + |r|]
    ensures forall i :: 0 <= i < LeadingSpace(s) ==> IsSpace(s[i])
    ensures forall i :: LeadingSpace(s) + |r| <= i < |s| ==> IsSpace(s[i])
    ensures r != [] ==> !IsSpace(r[0]) && !IsSpace(r[|r| - 1])
  {
    var a := LeadingSpace(s);
    if a == |s| then []
    else
      var b := SkipBackWhile(IsSpace, s, |s|);
      assert a < b;
      s[a..b]
  }

  /** A string that neither starts nor ends with whitespace is its own strip. */
  lemma StripStripped(s: string)
    requires s != [] ==> !IsSpace(s[0]) && !IsSpace(s[|s| - 1])
    ensures Strip(s) == s
  {
    if s != [] {
      assert LeadingSpace(s) == 0 by {
        assert !IsSpace(s[0]);
      }
      assert SkipBackWhile(IsSpace, s, |s|) == |s| by {
        assert !IsSpace(s[|s| - 1]);
      }
    }
  }

  /** Stripping keeps every non-whitespace character: filtering by any predicate
      that rejects whitespace gives the same result before and after. */
  lemma StripKeepsNonSpace(p: char -> bool, s: string)
    requires forall c :: IsSpace(c) ==> !p(c)
    ensures Filter(p, Strip(s)) == Filter(p, s)
  {
    var a := LeadingSpace(s);
    var r := Strip(s);
    var b := a + |r|;
    var pre, post := s[..a], s[b..];
    assert s == pre + r + post;
    assert Filter(p, pre) == [] by {
      forall i | 0 <= i < |pre|
        ensures !p(pre[i])
      {
        assert IsSpace(s[i]);
      }
      FilterNone(p, pre);
    }
    assert Filter(p, post) == [] by {
      forall i | 0 <= i < |post|
        ensures !p(post[i])
      {
        assert IsSpace(s[b + i]);
      }
      FilterNone(p, post);
    }
    FilterConcat(p, pre + r, post);
    FilterConcat(p, pre, r);
  }

  /** The value of one ASCII digit */
  function DigitValue(c: char): (n: nat)
    requires IsDigit(c)
    ensures n <= 9
  {
    c as int - '0' as int
  }

  /** The ASCII digit whose value is `n` */
  function DigitChar(n: nat): (c: char)
    requires n <= 9
    ensures IsDigit(c) && DigitValue(c) == n
  {
    ('0' as int + n) as char
  }

  /** The decimal value of a string of ASCII digits (Python's `int(s)` on such a string) */
  function NumberValue(s: string): nat
    requires AllDigits(s)
  {
    if s == [] then 0 else 10 * NumberValue(s[..|s| - 1]) + DigitValue(s[|s| - 1])
  }

  lemma NumberValueSnoc(s: string, c: char)
    requires AllDigits(s) && IsDigit(c)
    ensures AllDigits(s + [c]) && NumberValue(s + [c]) == 10 * NumberValue(s) + DigitValue(c)
  {
    assert (s + [c])[..|s|] == s;
  }

  /** A number as exactly two digits with a leading zero (`%H`, `%M`, `%m`, `%d`) */
  function Pad2(n: nat): (r: string)
    requires n <= 99
    ensures |r| == 2 && AllDigits(r)
    ensures NumberValue(r) == n
  {
    var a, b := DigitChar(n / 10), DigitChar(n % 10);
    NumberValueSnoc([], a);
    assert [] + [a] == [a];
    NumberValueSnoc([a], b);
    [a, b]
  }

  /** A number as exactly four digits with leading zeros (`%Y` for years 1 to 9999) */
  function Pad4(n: nat): (r: string)
    requires n <= 9999
    ensures |r| == 4 && AllDigits(r)
    ensures NumberValue(r) == n
  {
    var a, b, c, d := DigitChar(n / 1000), DigitChar(n / 100 % 10), DigitChar(n / 10 % 10), DigitChar(n % 10);
    NumberValueSnoc([], a);
    assert [] + [a] == [a];
    NumberValueSnoc([a], b);
    assert [a] + [b] == [a, b];
    NumberValueSnoc([a, b], c);
    assert [a, b] + [c] == [a, b, c];
    NumberValueSnoc([a, b, c], d);
    assert [a, b, c] + [d] == [a, b, c, d];
    assert n / 100 == 10 * (n / 1000) + n / 100 % 10;
    assert n / 10 == 10 * (n / 100) + n / 10 % 10;
    [a, b, c, d]
  }

  /** The regex `\d\d?` matched against all of `s` (strptime's two-digit fields
      also accept one digit), read as a number no larger than `max`. */
  function SmallNumber(s: string, max: nat): (r: Option<nat>)
    ensures r.Some? <==> 1 <= |s| <= 2 && AllDigits(s) && NumberValue(s) <= max
    ensures r.Some? ==> r.value <= max
  {
    if 1 <= |s| <= 2 && AllDigits(s) && NumberValue(s) <= max then Some(NumberValue(s)) else None
  }

  /** Index of the first occurrence of `c` in `s` */
  function IndexOf(s: string, c: char): (r: Option<nat>)
    ensures r.Some? ==> r.value < |s| && s[r.value] == c && c !in s[..r.value]
    ensures r.None? ==> c !in s
  {
    if s == [] then None
    else if s[0] == c then Some(0)
    else match IndexOf(s[1..], c)
      case None => None
      case Some(i) => assert s[..i + 1] == [s[0]] + s[1..][..i]; Some(i + 1)
  }

  /** Index of the last occurrence of `c` in `s` */
  function LastIndexOf(s: string, c: char): (r: Option<nat>)
    ensures r.Some? ==> r.value < |s| && s[r.value] == c && c !in s[r.value + 1..]
    ensures r.None? ==> c !in s
  {
    if s == [] then None
    else if s[|s| - 1] == c then Some(|s| - 1)
    else match LastIndexOf(s[..|s| - 1], c)
      case None => None
      case Some(i) => assert s[i + 1..] == s[..|s| - 1][i + 1..] + [s[|s| - 1]]; Some(i)
  }

  /** `pat` occurs at index `i` of `text`, ignoring ASCII case (regex `re.IGNORECASE`). */
  predicate MatchesAt(text: string, pat: string, i: nat)
  {
    i + |pat| <= |text| && forall k :: 0 <= k < |pat| ==> LowerChar(text[i + k]) == LowerChar(pat[k])
  }

  /** The first case-insensitive occurrence of `pat` at or after index `i`
      (the match position of `re.search`). */
  function FindFrom(text: string, pat: string, i: nat): (r: Option<nat>)
    decreases |text| - i
    ensures r.Some? ==> i <= r.value && MatchesAt(text, pat, r.value)
    ensures forall j :: i <= j && (r.None? || j < r.value) ==> !MatchesAt(text, pat, j)
  {
    if i + |pat| > |text| then None
    else if MatchesAt(text, pat, i) then Some(i)
    else FindFrom(text, pat, i + 1)
  }

  /** The search finds an occurrence exactly when it is the first one from `i` on. */
  lemma FindFromFirst(text: string, pat: string, i: nat, x: nat)
    requires i <= x && MatchesAt(text, pat, x)
    requires forall j :: i <= j < x ==> !MatchesAt(text, pat, j)
    ensures FindFrom(text, pat, i) == Some(x)
  {
  }
}

=== FILE: uploads.dfy ===
/** Uploaded files: the extension whitelist of the first schema, and the naming
    of an uploaded medical record in the second schema, which reads a diagnosis
    and a date out of the file's text. */
module Uploads {
  import opened Common
  import opened Text
  import opened Calendar

  /** `ALLOWED_EXTENSIONS` */
  const AllowedExtensions: set<string> := {"txt", "pdf", "png", "jpg", "jpeg", "gif", "doc", "docx", "xls", "xlsx"}

  /** `allowed_file`: the name has a dot and the text after its last dot, lower-cased,
      is a whitelisted extension. */
  function AllowedFile(name: string): (r: bool)
    ensures r ==> '.' in name
  {
    match LastIndexOf(name, '.')
    case None => false
    case Some(i) => Lower(name[i + 1..]) in AllowedExtensions
  }

  /** A name with a dot decides on the text after its last dot, in any case. */
  lemma AllowedFileOfExtension(stem: string, ext: string)
    requires '.' !in ext
    ensures AllowedFile(stem + "." + ext) <==> Lower(ext) in AllowedExtensions
  {
    var name := stem + "." + ext;
    assert name[|stem|] == '.';
    var i := LastIndexOf(name, '.').value;
    assert i == |stem|;
    assert name[i + 1..] == ext;
  }

  /** The extension is compared in lower case. */
  lemma UpperCaseExtensionAllowed()
    ensures AllowedFile("scan.PDF")
  {
    AllowedFileOfExtension("scan", "PDF");
    assert "scan" + "." + "PDF" == "scan.PDF";
    assert Lower("PDF") == "pdf";
  }

  /** Only the text after the last dot counts. */
  lemma DoubleExtensionRefused()
    ensures !AllowedFile("a.tar.gz")
  {
    AllowedFileOfExtension("a.tar", "gz");
    assert "a.tar" + "." + "gz" == "a.tar.gz";
    assert |Lower("gz")| == 2;
  }

  lemma EmptyExtensionRefused()
    ensures !AllowedFile("file.")
  {
    AllowedFileOfExtension("file", "");
    assert "file" + "." + "" == "file.";
    assert Lower("") == "";
  }

  lemma NoDotRefused(name: string)
    requires '.' !in name
    ensures !AllowedFile(name)
  {
  }

  predicate NotNewline(c: char) { c != '\n' }

  /** `\s*(.*)` from index `i`, then `strip()`: skip whitespace, line breaks
      included, take the rest of that line and strip it. */
  function RestOfLine(text: string, i: nat): (r: string)
    requires i <= |text|
    ensures '\n' !in r
    ensures r != [] ==> !IsSpace(r[0]) && !IsSpace(r[|r| - 1])
  {
    var j := SkipWhile(IsSpace, text, i);
    var k := SkipWhile(NotNewline, text, j);
    var r := Strip(text[j..k]);
    assert '\n' !in r by {
      forall m | 0 <= m < |r|
        ensures r[m] != '\n'
      {
        assert r[m] == text[j..k][LeadingSpace(text[j..k]) + m];
      }
    }
    r
  }

  /** `re.search(tag + r'\s*(.*)', text, re.IGNORECASE).group(1).strip()`: the rest of
      the line after the first occurrence of `tag` in any case. `None` when `tag`
      occurs nowhere. */
  function FieldValue(text: string, tag: string): (r: Option<string>)
    ensures r.None? <==> FindFrom(text, tag, 0).None?
    ensures r.Some? ==> '\n' !in r.value
    ensures r.Some? && r.value != [] ==> !IsSpace(r.value[0]) && !IsSpace(r.value[|r.value| - 1])
  {
    match FindFrom(text, tag, 0)
    case None => None
    case Some(i) => Some(RestOfLine(text, i + |tag|))
  }

  /** The rest of the line is the text from the first non-blank character up to
      the next line break, when that text has no blank at its end. */
  lemma RestOfLineAt(t: string, a: nat, b: nat, c: nat)
    requires a <= b < c < |t|
    requires forall k :: a <= k < b ==> IsSpace(t[k])
    requires forall k :: b <= k < c ==> NotNewline(t[k])
    requires !IsSpace(t[b]) && !IsSpace(t[c - 1]) && t[c] == '\n'
    ensures RestOfLine(t, a) == t[b..c]
  {
    SkipWhileStopsAt(IsSpace, t, a, b);
    SkipWhileStopsAt(NotNewline, t, b, c);
    var v := t[b..c];
    assert v[0] == t[b] && v[|v| - 1] == t[c - 1];
    StripStripped(v);
  }

  /** There is no value exactly when the tag occurs nowhere, in any case. */
  lemma FieldValueMissing(text: string, tag: string)
    ensures FieldValue(text, tag).None? <==> forall j: nat :: !MatchesAt(text, tag, j)
  {
  }

  /** A tag first found at `x` has the rest of the line after it as its value. */
  lemma FieldValueFound(t: string, tag: string, x: nat)
    requires MatchesAt(t, tag, x)
    requires forall j :: 0 <= j < x ==> !MatchesAt(t, tag, j)
    ensures FieldValue(t, tag) == Some(RestOfLine(t, x + |tag|))
  {
    FindFromFirst(t, tag, 0, x);
  }

  /** The tag written in its own case matches. */
  lemma ExactMatch(t: string, tag: string, x: nat)
    requires x + |tag| <= |t| && t[x..x + |tag|] == tag
    ensures MatchesAt(t, tag, x)
  {
    forall k | 0 <= k < |tag|
      ensures LowerChar(t[x + k]) == LowerChar(tag[k])
    {
      assert t[x + k] == t[x..x + |tag|][k];
    }
  }

  /** The two halves together: the first occurrence of `tag` at `x`, followed by
      blanks up to `b` and the value up to the newline at `c`, yields `t[b..c]`. */
  lemma FieldValueAt(t: string, tag: string, x: nat, b: nat, c: nat)
    requires MatchesAt(t, tag, x)
    requires forall j :: 0 <= j < x ==> !MatchesAt(t, tag, j)
    requires x + |tag| <= b < c < |t|
    requires forall k :: x + |tag| <= k < b ==> IsSpace(t[k])
    requires forall k :: b <= k < c ==> NotNewline(t[k])
    requires !IsSpace(t[b]) && !IsSpace(t[c - 1]) && t[c] == '\n'
    ensures FieldValue(t, tag) == Some(t[b..c])
  {
    calc {
      FieldValue(t, tag);
    == { FieldValueFound(t, tag, x); }
      Some(RestOfLine(t, x + |tag|));
    == { RestOfLineAt(t, x + |tag|, b, c); }
      Some(t[b..c]);
    }
  }

  /** Where the pieces of a labelled line sit in the text they make up. */
  lemma LineLayout(pre: string, tag: string, gap: string, v: string, rest: string)
    ensures var t := pre + tag + gap + v + "\n" + rest;
      var a := |pre| + |tag|;
      && t[|pre|..a] == tag
      && (forall k :: a <= k < a + |gap| ==> t[k] == gap[k - a])
      && (forall k :: a + |gap| <= k < a + |gap| + |v| ==> t[k] == v[k - a - |gap|])
      && t[a + |gap| + |v|] == '\n'
      && t[a + |gap|..a + |gap| + |v|] == v
  {
  }

  /** A labelled line reads back: when `tag` first occurs right after `pre` and is
      followed by whitespace and then the value on its own line, the value is found. */
  lemma FieldValueOfLine(pre: string, tag: string, gap: string, v: string, rest: string)
    requires var t := pre + tag + gap + v + "\n" + rest; forall j :: 0 <= j < |pre| ==> !MatchesAt(t, tag, j)
    requires forall i :: 0 <= i < |gap| ==> IsSpace(gap[i])
    requires v != [] && !IsSpace(v[0]) && !IsSpace(v[|v| - 1]) && '\n' !in v
    ensures FieldValue(pre + tag + gap + v + "\n" + rest, tag) == Some(v)
  {
    var t := pre + tag + gap + v + "\n" + rest;
    var a := |pre| + |tag|;
    var b, c := a + |gap|, a + |gap| + |v|;
    calc {
      FieldValue(t, tag);
    == { LineLayout(pre, tag, gap, v, rest);
         ExactMatch(t, tag, |pre|);
         FieldValueAt(t, tag, |pre|, b, c); }
      Some(t[b..c]);
    == { LineLayout(pre, tag, gap, v, rest); }
      Some(v);
    }
  }

  /** A blank value does not stop the search at the end of its line: the value is
      taken from the next line that has text. */
  lemma FieldValueSkipsBlankLines()
    ensures FieldValue([] + "Diagnosis:" + "\n\n" + "Flu" + "\n" + [], "Diagnosis:") == Some("Flu")
  {
    FieldValueOfLine([], "Diagnosis:", "\n\n", "Flu", []);
  }

  /** The diagnosis line's value, or `"No-Diagnosis"` when the file has none. */
  function Diagnosis(text: string): (r: string)
    ensures FieldValue(text, "Diagnosis:").Some? ==> r == FieldValue(text, "Diagnosis:").value
    ensures (forall j: nat :: !MatchesAt(text, "Diagnosis:", j)) ==> r == "No-Diagnosis"
  {
    match FieldValue(text, "Diagnosis:")
    case None => "No-Diagnosis"
    case Some(v) => v
  }

  /** `diagnosis[:11]` */
  function Head11(s: string): (r: string)
    ensures |r| <= 11 && |r| <= |s| && r == s[..|r|]
    ensures |s| <= 11 ==> r == s
  {
    if |s| <= 11 then s else s[..11]
  }

  /** The summary kept for a diagnosis: its first 11 characters, with everything
      but letters, digits and whitespace dropped, stripped. It is at most 11
      characters of letters, digits and inner spaces, and it keeps every letter
      and digit of those 11 characters, in order. */
  function Truncate(d: string): (r: string)
    ensures |r| <= 11
    ensures forall i :: 0 <= i < |r| ==> IsAlnumOrSpace(r[i])
    ensures r != [] ==> !IsSpace(r[0]) && !IsSpace(r[|r| - 1])
    ensures Filter(IsAlnum, r) == Filter(IsAlnum, Head11(d))
  {
    var h := Head11(d);
    var kept := Filter(IsAlnumOrSpace, h);
    FilterKeepsOnly(IsAlnumOrSpace, h);
    StripKeepsClass(IsAlnumOrSpace, kept);
    StripKeepsNonSpace(IsAlnum, kept);
    FilterNarrow(IsAlnumOrSpace, IsAlnum, h);
    Strip(kept)
  }

  /** Stripping keeps only characters the string already had. */
  lemma StripKeepsClass(p: char -> bool, s: string)
    requires forall i :: 0 <= i < |s| ==> p(s[i])
    ensures forall i :: 0 <= i < |Strip(s)| ==> p(Strip(s)[i])
  {
    var r := Strip(s);
    forall i | 0 <= i < |r|
      ensures p(r[i])
    {
      assert r[i] == s[LeadingSpace(s) + i];
    }
  }

  /** A diagnosis already made of at most 11 letters, digits and inner spaces is
      kept as it is. */
  lemma TruncateKeepsShortNames(d: string)
    requires |d| <= 11 && forall i :: 0 <= i < |d| ==> IsAlnumOrSpace(d[i])
    requires d != [] ==> !IsSpace(d[0]) && !IsSpace(d[|d| - 1])
    ensures Truncate(d) == d
  {
    FilterAll(IsAlnumOrSpace, d);
    StripStripped(d);
  }

  lemma {:induction false} FilterAll(p: char -> bool, s: string)
    requires forall i :: 0 <= i < |s| ==> p(s[i])
    ensures Filter(p, s) == s
  {
    if s != [] {
      FilterAll(p, s[1..]);
    }
  }

  /** Truncation is idempotent: a summary truncates to itself. */
  lemma TruncateIdempotent(d: string)
    ensures Truncate(Truncate(d)) == Truncate(d)
  {
    TruncateKeepsShortNames(Truncate(d));
  }

  /** The default diagnosis loses its hyphen and its last letter. */
  lemma DefaultSummary()
    ensures Truncate("No-Diagnosis") == "NoDiagnosi"
  {
    var a, b := "No", "Diagnosi";
    assert Head11("No-Diagnosis") == a + "-" + b;
    FilterDropsOne(IsAlnumOrSpace, a, '-', b);
    assert a + b == "NoDiagnosi";
    StripStripped(a + b);
  }

  /** Filtering a string with one rejected character among kept ones drops just it. */
  lemma FilterDropsOne(p: char -> bool, a: string, c: char, b: string)
    requires forall i :: 0 <= i < |a| ==> p(a[i])
    requires forall i :: 0 <= i < |b| ==> p(b[i])
    requires !p(c)
    ensures Filter(p, a + [c] + b) == a + b
  {
    var ac := a + [c];
    assert Filter(p, ac) == a by {
      FilterAll(p, a);
      FilterSingle(p, c);
      FilterConcat(p, a, [c]);
      assert a + [] == a;
    }
    assert Filter(p, b) == b by {
      FilterAll(p, b);
    }
    FilterConcat(p, ac, b);
  }

  /** The date part of the stored name: the file's `Date:` value when it reads as
      `'%B %d, %Y'`, otherwise `today`, written `YYYY-MM-DD`. A file without a
      `Date:` line starts from today's `YYYY-MM-DD` text, which never reads as
      `'%B %d, %Y'`, so it falls back to today as well. */
  function DatePart(text: string, today: Date): (r: string)
    requires ValidDate(today)
    ensures |r| == 10 && ParseIsoDate(r).Some?
    ensures FieldValue(text, "Date:").None? ==> r == IsoDate(today)
    ensures FieldValue(text, "Date:").Some? && ParseLongDate(FieldValue(text, "Date:").value).Some? ==>
      r == IsoDate(ParseLongDate(FieldValue(text, "Date:").value).value)
    ensures FieldValue(text, "Date:").Some? && ParseLongDate(FieldValue(text, "Date:").value).None? ==>
      r == IsoDate(today)
  {
    var dateText := match FieldValue(text, "Date:") case None => IsoDate(today) case Some(v) => v;
    IsoDateIsNotLong(today);
    IsoDateRoundTrip(today);
    match ParseLongDate(dateText)
    case Some(d) =>
      IsoDateRoundTrip(d);
      IsoDate(d)
    case None => IsoDate(today)
  }

  /** A `Date:` value written as `'%B %d, %Y'` is re-written as `YYYY-MM-DD`. */
  lemma DatePartOfLongDate(text: string, d: Date, today: Date)
    requires ValidDate(d) && ValidDate(today)
    requires FieldValue(text, "Date:") == Some(LongDate(d))
    ensures DatePart(text, today) == IsoDate(d)
  {
    LongDateRoundTrip(d);
  }

  /** A `Date:` value already written as `YYYY-MM-DD` does not read as
      `'%B %d, %Y'`, so the record is dated today. */
  lemma DatePartIgnoresIsoDate(text: string, d: Date, today: Date)
    requires ValidDate(d) && ValidDate(today)
    requires FieldValue(text, "Date:") == Some(IsoDate(d))
    ensures DatePart(text, today) == IsoDate(today)
  {
    IsoDateIsNotLong(d);
  }

  /** `f"{truncated_diagnosis}_{formatted_date}_{secure_filename(file.filename)}"` */
  function StoredName(summary: string, date: string, secured: string): (r: string)
    ensures |r| == |summary| + |date| + |secured| + 2
  {
    summary + "_" + date + "_" + secured
  }

  /** The stored name splits back into its parts: a summary never holds an
      underscore, so the first underscore ends it, and the fixed-width date sits
      between it and the second. */
  lemma StoredNameSplits(summary: string, date: string, secured: string)
    requires forall i :: 0 <= i < |summary| ==> IsAlnumOrSpace(summary[i])
    requires |date| == 10
    ensures var n := StoredName(summary, date, secured);
      && IndexOf(n, '_') == Some(|summary|)
      && n[..|summary|] == summary
      && n[|summary| + 1..|summary| + 11] == date
      && n[|summary| + 11] == '_'
      && n[|summary| + 12..] == secured
  {
    var n := StoredName(summary, date, secured);
    assert n[..|summary|] == summary;
    assert n[|summary|] == '_';
    assert '_' !in summary by {
      forall i | 0 <= i < |summary|
        ensures summary[i] != '_'
      {
        assert IsAlnumOrSpace(summary[i]);
      }
    }
  }

  /** The uploaded file as the request carries it. */
  datatype Upload = Upload(filename: string, content: string)

  datatype UploadError = NoFilePart | NoSelectedFile

  /** A row of the second schema's `MedicalRecord` table. */
  datatype Record = Record(id: int, patientId: int, filename: string, summary: string, content: string)

  function RecordIds(records: seq<Record>): seq<int>
  {
    Ids(records, (x: Record) => x.id)
  }

  /** `upload_record`: refuse a missing file or an empty file name; otherwise store
      one record named from the file's diagnosis and date. `secure` stands for
      `secure_filename` and `today` for the clock. */
  function UploadRecord(records: seq<Record>, patientId: int, file: Option<Upload>, today: Date, secure: string -> string)
    : (r: Result<seq<Record>, UploadError>)
    requires ValidDate(today)
    ensures file.None? ==> r == Err(NoFilePart)
    ensures file.Some? ==> (r.Err? <==> file.value.filename == "")
    ensures r.Err? && file.Some? ==> r.error == NoSelectedFile
    ensures r.Ok? ==>
      && |r.value| == |records| + 1
      && r.value[..|records|] == records
      && var n := r.value[|records|];
         && n.patientId == patientId
         && n.content == file.value.content
         && n.summary == Truncate(Diagnosis(file.value.content))
         && n.filename == StoredName(n.summary, DatePart(file.value.content, today), secure(file.value.filename))
         && forall i :: 0 <= i < |records| ==> records[i].id != n.id
  {
    match file
    case None => Err(NoFilePart)
    case Some(f) =>
      if f.filename == "" then Err(NoSelectedFile)
      else
        var summary := Truncate(Diagnosis(f.content));
        var name := StoredName(summary, DatePart(f.content, today), secure(f.filename));
        var n := Record(NextRowId(RecordIds(records)), patientId, name, summary, f.content);
        assert (records + [n])[..|records|] == records;
        Ok(records + [n])
  }

  /** The name of a stored record gives back its summary and its date: the
      summary up to the first underscore, then the date as `YYYY-MM-DD`. */
  lemma UploadedNameSplits(records: seq<Record>, patientId: int, file: Option<Upload>, today: Date, secure: string -> string)
    requires ValidDate(today)
    requires file.Some? && file.value.filename != ""
    ensures UploadRecord(records, patientId, file, today, secure).Ok?
    ensures var n := UploadRecord(records, patientId, file, today, secure).value[|records|];
      && IndexOf(n.filename, '_') == Some(|n.summary|)
      && n.filename[..|n.summary|] == n.summary
      && ParseIsoDate(n.filename[|n.summary| + 1..|n.summary| + 11]) == ParseIsoDate(DatePart(file.value.content, today))
      && n.filename[|n.summary| + 12..] == secure(file.value.filename)
  {
    var n := UploadRecord(records, patientId, file, today, secure).value[|records|];
    StoredNameSplits(n.summary, DatePart(file.value.content, today), secure(file.value.filename));
  }

  /** A file whose first `Date:` line carries a date in `'%B %d, %Y'` form is
      stored under that date, whatever the day of the upload. */
  lemma UploadUsesFileDate(pre: string, d: Date, rest: string, today: Date)
    requires ValidDate(d) && ValidDate(today)
    requires var t := pre + "Date:" + " " + LongDate(d) + "\n" + rest;
      forall j :: 0 <= j < |pre| ==> !MatchesAt(t, "Date:", j)
    ensures DatePart(pre + "Date:" + " " + LongDate(d) + "\n" + rest, today) == IsoDate(d)
  {
    var v := LongDate(d);
    assert v != [] && !IsSpace(v[0]) && '\n' !in v && !IsSpace(v[|v| - 1]) by {
      var name, dd, yy := MonthName(d.month), Pad2(d.day), Pad4(d.year);
      assert v == name + " " + dd + ", " + yy;
      assert v[0] == MonthNames[d.month - 1][0];
      assert v[|v| - 1] == yy[3];
      forall i | 0 <= i < |v|
        ensures v[i] != '\n'
      {
        if i < |name| {
          assert v[i] == MonthNames[d.month - 1][i];
        } else if i >= |name| + 3 + |dd| {
          assert v[i] == yy[i - |name| - 3 - |dd|];
        } else if |name| + 1 <= i < |name| + 1 + |dd| {
          assert v[i] == dd[i - |name| - 1];
        }
      }
    }
    FieldValueOfLine(pre, "Date:", " ", v, rest);
    DatePartOfLongDate(pre + "Date:" + " " + v + "\n" + rest, d, today);
  }
}
